=== FILE: README.md ===
# FootballSimulator core in Dafny

A functional model of the simulation core of `FootballSimulator/Program.cs`:

- players and their discipline record;
- team rosters (`Team<TPlayer>.Add`, `SubstitutePlayer`, enumeration order);
- the referee's foul adjudication (`Referee.CallFoul`);
- the match engine (`FootballMatch.SimulateMatch`, `SimulateHalfAsync`,
  `SimulateOvertime`, `CheckTechnicalDefeat`);
- the tournament (`Tournament`: fixture generation, rotation of the
  officials, points, tie replays and the final table).

Every object the C# code mutates is an immutable value here, and every
operation is a pure function from the old state to the new one.

- **Randomness.** The process-wide `FootballMatch.Random` is a stream of draws
  (`Draws.Stream`, a function from positions to naturals) plus the position of
  the next unread draw. `Random.Next(k)` is the draw at that position reduced
  modulo `k`. Each operation returns the position after the draws it read.
  Every property is proved for all streams, so it holds whatever `Random`
  returns.
- **Stats.** A player is an identity (`id`, `role`). Goals, saves, yellow cards
  and the red-card flag live in a `Tally` map shared by every match of a
  tournament. This is how bookings carry over from one fixture to the next.
- **Teams.** Inside a tournament, a team is its index in `Teams`.
- **Observers.** The commentator and the journalist, subscribed to
  `MatchEvent`, are modelled by the `Log` of events they received. An event
  is delivered only while the match is still subscribed.

Modules, in dependency order:

| Module | Contents |
|---|---|
| `Wrappers` | `Option` and `Result` |
| `Draws` | the stream of draws |
| `Players` | `Player`, `Stats`, `Tally` |
| `Roster` | `Team<TPlayer>` |
| `Fouls` | `Foul`, `Referee.CallFoul` |
| `MatchEngine` | `FootballMatch` |
| `MatchFacts` | whole-match lemmas |
| `Fixtures` | schedule and rotation of the officials |
| `Standings` | points, tie set, replay pairs, final ordering |
| `Tournament` | `Tournament.SimulateTournament` |

The tournament takes the match engine as a function-valued parameter
(`Tournament.Simulator`). `Tournament.SimulateTournament` instantiates that
parameter with `MatchEngine.SimulateMatch` over the shared stream. The
tournament lemmas hold for every engine. The lemma about player stats needs
only that the engine never takes a goal, save or card back, and
`Tournament.EngineKeepsStats` proves this of the real engine.

Where the code's behaviour differs from what its names and comments suggest,
the model follows the code:

- **Forward selection.** A forward is picked from the whole enumeration,
  starting players followed by substitutes, with no red-card filter
  (:514, :527). A benched forward who fouls and is sent off makes
  `SubstitutePlayer` fail, and that team then loses by technical defeat.
- **Red cards.** The red-card branch never calls `ReceiveRedCard` (:538-542).
- **Set pieces.** Free-kick and penalty goals always go to `SecondTeamScore`
  (:610, :626).
- **Saves.** A save is made by the first goalkeeper of the period's nominal
  `defendingTeam` (:660), not by the goalkeeper of the side that did not
  attack this minute.
- **Overtime.**
  - A level score after regulation calls `SimulateOvertime` twice
    (:462, :473).
  - Each call plays two 15-minute periods, so a full overtime lasts 60
    minutes.
  - A technical defeat is not checked between those periods, nor after the
    second call.
  - The first team nominally attacks in every overtime period.
- **Result message.**
  - The end-of-match message after full time is sent after
    `UnsubscribeFromEvents` (:477-479), so no observer receives it.
  - On the technical-defeat path, the message of `CheckTechnicalDefeat` is
    delivered (:489), because unsubscription happens only afterwards (:444).
  - After a technical defeat in the first `SimulateOvertime` call, the call
    still plays its second period (:688-692), and goals in it count. The
    forfeit score can therefore change before `CheckTechnicalDefeat` runs
    (:463), and the result message (:488) names whoever leads then. That can
    be the forfeiting side, or the second team on a level score.
  - On level scores the second team is named as winner.
  - Every technical defeat also announces itself at the moment it happens
    (:558, :592), while observers are still subscribed. After a detected
    defeat they therefore hear that announcement and then the result message
    of :489. A defeat in the second `SimulateOvertime` call is announced but
    never detected, so the match ends at full time with no result message.
- **Journalist rotation.** `GetNextJournalist` advances `currentRefereeIndex`
  modulo the number of journalists and never moves `currentJournalistIndex`
  (:836). So every match gets journalist 0. With more journalists than
  referees, a referee lookup can go out of range and abort the tournament.

## Model

| member | source | states |
|---|---|---|
| Players.Score | FootballSimulator/Program.cs:39-42 | goals/saves rise by exactly one; cards and red flag untouched |
| Players.ReceiveYellowCard | FootballSimulator/Program.cs:44-53 | yellow cards rise by exactly one; the red flag is set iff it was already set or the count is now exactly 2; scores untouched |
| Players.ReceiveRedCard | FootballSimulator/Program.cs:54-57 | the red flag is set; scores and yellow cards untouched |
| Players.NothingClearsRedCard | FootballSimulator/Program.cs:39-57 | after any sequence of scoring, booking and sending off, no counter has decreased and a set red flag is still set |
| Players.SecondBookingSendsOff | FootballSimulator/Program.cs:44-53 | starting below two bookings, any sequence that reaches two or more yellow cards leaves the red flag set |
| Players.RedFlagTracksBookings | FootballSimulator/Program.cs:44-53 | without direct red cards, "red flag set" and "two or more yellow cards" stay equivalent under any sequence of operations |
| Players.ScorePlayer | FootballSimulator/Program.cs:609 | in the shared stats map, the scorer's whole record becomes Score of its old record (goals/saves up by one, bookings and red flag as they were); every other player's stats are unchanged; nothing decreases |
| Players.BookPlayer | FootballSimulator/Program.cs:569 | in the shared stats map, one player receives ReceiveYellowCard, every other player's stats are unchanged, and nothing decreases |
| Roster.Members | FootballSimulator/Program.cs:206-209 | the enumeration is the starting list followed by the substitutes |
| Roster.Add | FootballSimulator/Program.cs:126-144 | null is rejected (iff); otherwise the player is appended to exactly one list: starting while it has fewer than 11 and, for a goalkeeper, no goalkeeper yet, otherwise substitutes; the squad multiset gains exactly the player; at most 11 starters with at most one goalkeeper is preserved |
| Roster.AddKeepsRosterValid | FootballSimulator/Program.cs:126-144 | after any sequence of Add calls, a valid roster is still valid, and the squad gains exactly the added players |
| Roster.RemoveFirst | FootballSimulator/Program.cs:159-160 | List.Remove: a present player loses exactly one copy from the multiset and the length drops by one; an absent player leaves the list unchanged |
| Roster.RemoveFirstKeepsOrder | FootballSimulator/Program.cs:159-160 | the copy removed is the first occurrence, and the players before and after it stay in order |
| Roster.Substitute | FootballSimulator/Program.cs:147-181 | succeeds iff the player starts and a substitute exists; on failure the team is unchanged; the name never changes |
| Roster.SubstituteRotates | FootballSimulator/Program.cs:150-167 | on success, the first substitute is appended to the starting list (minus the outgoing player) and the outgoing player to the substitutes (minus the first) |
| Roster.SubstituteKeepsSquad | FootballSimulator/Program.cs:147-181 | both list lengths and the combined multiset of players are unchanged |
| Roster.SubstituteSkipsGoalkeeperRule | FootballSimulator/Program.cs:150-163 | substituting a starting forward when the first substitute is a goalkeeper puts a second goalkeeper in a starting list that had one |
| Roster.OfRole | FootballSimulator/Program.cs:514 | OfType: a player is in the result iff it is in the input with the role; never longer than the input |
| Roster.OfRoleCounts | FootballSimulator/Program.cs:514 | OfType keeps every player of the role as many times as it occurs and drops every other player |
| Roster.OfRoleConcat | FootballSimulator/Program.cs:206-209 | filtering a concatenation is the concatenation of the filtered parts, in order |
| Roster.ForwardsInOrder | FootballSimulator/Program.cs:514 | the forwards of a team are the starting forwards in order, followed by the substitute forwards in order |
| Roster.FirstOfRole | FootballSimulator/Program.cs:660 | OfType(..).FirstOrDefault(): none iff no player has the role, otherwise the earliest such player |
| Draws.FirstMinIndex | FootballSimulator/Program.cs:514 | OrderBy(..).First: the index of a minimal key with no equal key before it (stable sort) |
| Draws.Next | FootballSimulator/Program.cs:511 | Random.Next(k) lies in [0, k) |
| Draws.Key | FootballSimulator/Program.cs:514 | Random.Next() lies in [0, Int32.MaxValue) |
| Draws.NextReachesEveryValue | FootballSimulator/Program.cs:511 | every value of [0, k) is a possible outcome of Random.Next(k) at every position |
| Fouls.CallFoul | FootballSimulator/Program.cs:358-376 | a card is always shown, red iff the 20-way draw is 0; free kick iff the next 2-way draw is 0; penalty iff no free kick and the third draw is 0; never both; two draws are read with a free kick, three without |
| Fouls.CallFoulReadsOnlyItsDraws | FootballSimulator/Program.cs:358-376 | the ruling depends only on the draws CallFoul reads |
| MatchEngine.Emit | FootballSimulator/Program.cs:405-409 | publishing changes nothing but the log, and adds a result message (the winner-and-score line of :479/:489) to the count only while subscribed |
| MatchEngine.Forfeit | FootballSimulator/Program.cs:545-558 | technical defeat: the loser is flagged and the score is exactly 1-0 to its opponent; while subscribed, the technical-defeat announcement is the last event delivered; rosters, stats, clock and subscription untouched |
| MatchEngine.PickForward | FootballSimulator/Program.cs:514 | one draw per forward of the enumeration (bench included); none iff the team has no forward, otherwise a forward of the team holding the first smallest key |
| MatchEngine.MinuteSide | FootballSimulator/Program.cs:511 | the minute's attacking team is the period's nominal attacker iff the 2-way draw is 0, otherwise the other team |
| MatchEngine.OpenPlay | FootballSimulator/Program.cs:636-667 | the minute's attacking side scores exactly on a 0 from the 5-way draw and the other score is unchanged; on a goal the shooter's record becomes Score of the old one and no other record changes; otherwise the first goalkeeper of the nominal defender gets the same single increment (a save) and no other record changes, and with no goalkeeper no record changes |
| MatchEngine.SetPieceShot | FootballSimulator/Program.cs:606-616 | a set piece scores on a 0 from a 2-way draw, always for the second team, and the first team's score is unchanged; on a goal the shooter's record becomes Score of the old one and no other record changes; on a miss no record changes |
| MatchEngine.Award | FootballSimulator/Program.cs:603-617 | a free kick or penalty reads one draw iff it was awarded; only the second team's score can rise, by at most one and only if awarded; rosters, clock and defeat flag untouched |
| MatchEngine.SetPieces | FootballSimulator/Program.cs:603-633 | one draw per awarded set piece; only the second team's score can rise, by at most the number of set pieces awarded |
| MatchEngine.SendOff | FootballSimulator/Program.cs:542-564 | the period halts iff SubstitutePlayer fails; then the fouling side forfeits 1-0 with its roster unchanged; otherwise its roster is the substituted one and scores are unchanged |
| MatchEngine.Discipline | FootballSimulator/Program.cs:536-600 | a red card leaves every player's stats as they were (no ReceiveRedCard); a yellow is booked on the offender only; the period halts iff the player is sent off (red card or second booking) and SubstitutePlayer fails, and a halt is a forfeit of the fouling side; otherwise the fouling side's roster is the substituted one after a sending off and unchanged after a first booking; the other roster never changes |
| MatchEngine.Adjudicate | FootballSimulator/Program.cs:532-633 | a halted foul is a forfeit of the fouling side; otherwise neither score falls, at most one goal is added, and never for the first team |
| MatchEngine.FoulPlay | FootballSimulator/Program.cs:521-635 | a halted foul minute ends in a 1-0 forfeit; otherwise at most one goal and neither score falls |
| MatchEngine.Minute | FootballSimulator/Program.cs:506-673 | one minute passes; either a forfeit ends the period, or neither score falls and the total rises by at most one |
| MatchEngine.Attack | FootballSimulator/Program.cs:516-669 | without a foul (10-way draw not 0), the minute's attacking side scores exactly on a 0 from the next 5-way draw, the other score is unchanged and no halt occurs |
| MatchEngine.Period | FootballSimulator/Program.cs:503-674 | a period either runs its full length with no score falling and at most one goal per minute, or, when a minute ends in a technical defeat, returns exactly that minute's state and draw position, so no later minute is played and no later draw is read, with the score forfeit 1-0 |
| MatchEngine.PlayOn | FootballSimulator/Program.cs:506-673 | the same for the loop with at least one minute left, which reads at least one draw; a halting first minute is the loop's result |
| MatchEngine.Overtime | FootballSimulator/Program.cs:682-693 | SimulateOvertime plays between 2 and 30 minutes; a technical defeat is never undone; without one both 15-minute periods are played in full and no score falls |
| MatchEngine.Opening | FootballSimulator/Program.cs:412-437 | a new match is 0-0, undecided, subscribed, with no result message |
| MatchEngine.EndByDefeat | FootballSimulator/Program.cs:441-445 | CheckTechnicalDefeat then unsubscribe: the result message is delivered and scores, clock and stats are frozen from the check on; when the state still holds the 1-0 forfeit score, the message names the forfeiting side's opponent |
| MatchEngine.EndAtFullTime | FootballSimulator/Program.cs:476-479 | after unsubscription the result message of :479 reaches nobody; scores, clock and stats frozen |
| MatchEngine.ExtraTime | FootballSimulator/Program.cs:457-474 | a level match ends either in a defeat detected after the first SimulateOvertime, within its 2 to 30 minutes (minutes 92-120), or at full time, which needs a clean first call and so comes after 32 to 60 further minutes (minutes 122-150); with no defeat all 60 minutes are played |
| MatchEngine.OvertimeCalls | FootballSimulator/Program.cs:459-479 | the same for the remaining SimulateOvertime calls, with the check only after the first: with both calls to come, full time needs the first call's 30 clean minutes plus at least 2 of the second's; a detected defeat falls within the first call |
| MatchEngine.MatchEnds | FootballSimulator/Program.cs:428-493 | SimulateMatch: a defeat detected after a half is a 1-0 forfeit in that half's minutes (1-45 or 46-90); a match with no technical defeat always reaches full time |
| MatchEngine.Winner | FootballSimulator/Program.cs:478-488 | the side the result message names is the first team iff its score is strictly higher; the named side never has the lower score |
| MatchEngine.ResultMessageOnlyOnDefeat | FootballSimulator/Program.cs:441-479 | SimulateMatch: observers receive the result message of :489 exactly once when CheckTechnicalDefeat detects a defeat, and the result message of :479 never, so a match that ends at full time delivers none; every match ends unsubscribed |
| MatchEngine.MatchStatsOnlyGrow | FootballSimulator/Program.cs:428-480 | SimulateMatch: no player's goals, saves, bookings or red flag decrease over a match |
| MatchEngine.MatchDuration | FootballSimulator/Program.cs:448-479 | SimulateMatch: a match won in regulation lasts exactly 90 minutes with unequal scores; a match that reaches full time after overtime lasts 122-150 minutes, exactly 150 without technical defeat; a defeat detected after the first overtime call ends the match in minutes 92-120 |
| MatchEngine.SecondHalfEnds | FootballSimulator/Program.cs:447-479 | SecondHalfOn, the match after a clean first half: a detected defeat follows the second half or the first overtime call; no defeat means full time |
| MatchEngine.SecondHalfBookkeeping | FootballSimulator/Program.cs:447-479 | SecondHalfOn: one result message (:489) on a detected defeat and none otherwise; stats only grow; observers unsubscribed |
| MatchEngine.SecondHalfForfeit | FootballSimulator/Program.cs:448-454 | SecondHalfOn: a defeat detected after the second half is a 1-0 forfeit inside minutes 46-90 |
| MatchEngine.SecondHalfDuration | FootballSimulator/Program.cs:448-479 | SecondHalfOn: the durations of MatchDuration (90; 122-150; 92-120), from the second half on |
| MatchFacts.ForfeitResultNamesOpponent | FootballSimulator/Program.cs:488-489 | while the state still holds the 1-0 forfeit score, as it always does at the check after a half, the result message names the forfeiting side's opponent |
| MatchFacts.FirstHalfDefeatEndsMatch | FootballSimulator/Program.cs:440-446 | a technical defeat in the first half ends the match: no further minute, draw or goal, and the result message names the opponent |
| MatchFacts.SecondHalfDefeatEndsMatch | FootballSimulator/Program.cs:448-454 | likewise for the second half: no overtime follows |
| Fixtures.NextOfficials | FootballSimulator/Program.cs:817-838 | the lookups succeed iff all three indices are in range, failing first on the commentator, then the referee; the officials are the current indices; the journalist index never moves; the next commentator index is within its list and the next referee index within the journalist count |
| Fixtures.NextOfficialsStaysHealthy | FootballSimulator/Program.cs:817-838 | with at least as many referees as journalists, every lookup succeeds and keeps the indices in range; the commentator index moves on by one modulo the list size |
| Fixtures.Pairs | FootballSimulator/Program.cs:788-795 | GenerateMatches' pairs: exactly n(n-1)/2 fixtures, a pair (i, j) present iff i < j < n, in strictly ascending lexicographic order (so each pair once) |
| Fixtures.Assign | FootballSimulator/Program.cs:783-798 | an assigned schedule has one fixture per pair, each keeping the pair's teams in order; a non-empty schedule fails on the commentator iff the commentator index is out of range |
| Fixtures.AssignSucceeds | FootballSimulator/Program.cs:788-795 | with indices in range and enough referees, scheduling succeeds; commentators rotate by one per fixture; every fixture gets the same journalist |
| Fixtures.ScheduleSucceeds | FootballSimulator/Program.cs:720-730 | with a commentator and at least as many referees as (at least one) journalists, the constructor schedules every fixture and all of them get journalist 0 |
| Fixtures.FewRefereesThrow | FootballSimulator/Program.cs:825-838 | with at most two referees and more journalists than referees, the referee lookup throws by the second fixture |
| Standings.Zeros | FootballSimulator/Program.cs:841-849 | every team starts on 0 points |
| Standings.Earned | FootballSimulator/Program.cs:852-868 | 3 points iff more goals, 1 iff equal, 0 iff fewer |
| Standings.UpdatePointsAwards | FootballSimulator/Program.cs:852-868 | UpdatePoints changes only the two teams' totals, each by the points it earned |
| Standings.UpdateAddsTwoOrThree | FootballSimulator/Program.cs:852-868 | UpdatePoints adds 2 to the points total for a draw and 3 for a decided match |
| Standings.Tied | FootballSimulator/Program.cs:752-755 | teamsWithEqualPoints: a team is in it iff another team has its total, and no team appears twice |
| Standings.ReplayPairs | FootballSimulator/Program.cs:762-771 | for a tie set without repeats, the replays are exactly the ordered pairs of different tied teams, k(k-1) of them |
| Standings.Ranking | FootballSimulator/Program.cs:776 | OrderByDescending on points: the table lists every team exactly once, by descending points, with equal totals in original order |
| Tournament.EngineKeepsStats | FootballSimulator/Program.cs:428-480 | the real match engine never decreases a player's stats |
| Tournament.PlayMatch | FootballSimulator/Program.cs:745-749 | one fixture is recorded, adds 2 or 3 points in total, leaves the officials' indices alone and keeps stats growing |
| Tournament.PlayAll | FootballSimulator/Program.cs:745-749 | playing a list of fixtures records them in order and adds between 2 and 3 points per match |
| Tournament.Replays | FootballSimulator/Program.cs:801-814 | replays record their pairs in order and add 2 to 3 points each; with indices in range and enough referees they all get officials |
| Tournament.RegularRound | FootballSimulator/Program.cs:745-749 | the first loop plays exactly the round-robin pairs, in order |
| Tournament.RunTournament | FootballSimulator/Program.cs:736-742 | constructor and SimulateTournament with any engine: FootballException (too few teams) is the outcome iff there are fewer than two teams |
| Tournament.HealthyPoolsNeverThrow | FootballSimulator/Program.cs:720-771 | with a commentator and at least as many referees as journalists, a tournament of two or more teams completes |
| Tournament.FewRefereesSinkTournament | FootballSimulator/Program.cs:825-838 | three or more teams, at most two referees and more journalists than referees make the constructor throw on a referee lookup |
| Tournament.MatchesPlayed | FootballSimulator/Program.cs:745-771 | the matches played are the round robin followed by one replay per ordered pair of teams level on points after it |
| Tournament.MatchCount | FootballSimulator/Program.cs:788-795 | n(n-1)/2 fixtures plus k(k-1) replays for k tied teams |
| Tournament.PointsAddUp | FootballSimulator/Program.cs:852-868 | the final points total is between 2 and 3 per match played |
| Tournament.TableIsRanked | FootballSimulator/Program.cs:776 | the final table ranks every team once by descending points, stable |
| Tournament.StatsCarryOver | FootballSimulator/Program.cs:745-771 | with an engine that keeps stats, no player's stats decrease over the tournament |
| Tournament.SimulateTournament | FootballSimulator/Program.cs:736-780 | with the real engine, player stats only grow from the first match to the last |

## Left out

- Console output: `Play()`, `PrintTeamInfo`, the minute banners and the replay/table printing (:75, :97, :166, :184-202, :508, :760, :775-779) are pure output.
- `Commentator` and `SportsJournalist` (:236-303) write to the console and append to files; only the events they receive are modelled.
- `XmlDataSerializer`, `JsonDataSerializer`, `Program.Main` and `SortAndSerializeTeams` (:871-1016) are persistence.
- `SortStartingPlayersAsync`, `SortSubstitutePlayersAsync` and `ComparePlayers` (:217-232) are `Task.Run` wrappers around `List.Sort`.
- `Task.Delay` and async/await: every loop is synchronous.
- The distribution of `System.Random`: draws are inputs, and properties hold for every stream rather than in probability.
- Message text, including the unassigned `winner` field (:399, :558): events are tags, and the result message only carries the side it names.
- The null checks of `SimulateMatch` (:431-434) and the unreachable `FootballException` at :172: teams are values and `Add` rejects null.
- Player names and shirt numbers: a player is an id and a role.
- Team identity by reference: teams are indices, so two entries holding the same `Team` object are not modelled.
- Officials' identities: they do not affect play, so a fixture records only their indices.
- An exception thrown part-way through the replay loop ends the run as an error; the state mutated before it is not returned.

=== FILE: draws.dfy ===
/**
 * The simulator's single shared System.Random, made explicit.
 *
 * A run consumes an infinite stream of raw draws in order; the position of the
 * next unread draw is threaded through every operation, so "how many draws were
 * consumed" is a difference of positions. A bounded call Random.Next(k) reads
 * one raw draw and reduces it into [0, k); every value of [0, k) is reachable,
 * so a property proved for every stream holds for every behaviour of Random.
 */
module Draws {

  /** Raw draws: the draw at position p is the one read by the p-th call on Random. */
  type Stream = nat -> nat

  /** Exclusive upper bound of the unbounded Random.Next(), Int32.MaxValue. */
  const IntMax: nat := 0x7FFF_FFFF

  /** Random.Next(k): the draw at `pos`, reduced into [0, k). */
  function Next(rs: Stream, pos: nat, k: nat): (v: nat)
    requires k > 0
    ensures v < k
  {
    rs(pos) % k
  }

  /** Random.Next(): the draw at `pos`, used as a random sort key. */
  function Key(rs: Stream, pos: nat): (v: nat)
    ensures v < IntMax
  {
    Next(rs, pos, IntMax)
  }

  /** Every value of [0, k) is a possible outcome of Random.Next(k) at any position. */
  lemma NextReachesEveryValue(pos: nat, k: nat, v: nat)
    requires v < k
    ensures exists rs: Stream :: Next(rs, pos, k) == v
  {
    var rs: Stream := _ => v;
    assert Next(rs, pos, k) == v;
  }

  /**
   * The element `OrderBy(key).FirstOrDefault()` returns: OrderBy is a stable
   * sort, so it is the FIRST position holding the smallest key.
   */
  function FirstMinIndex(keys: seq<nat>): (i: nat)
    requires |keys| > 0
    ensures i < |keys|
    ensures forall j :: 0 <= j < |keys| ==> keys[i] <= keys[j]
    ensures forall j :: 0 <= j < i ==> keys[i] < keys[j]
  {
    if |keys| == 1 then 0
    else
      var k := FirstMinIndex(keys[1..]);
      if keys[0] <= keys[k + 1] then 0 else k + 1
  }
}

=== FILE: engine.dfy ===
/**
 * The match engine (FootballMatch): the per-minute step, the 45- and 15-minute
 * periods, and the sequencing of halves and overtime, as the code runs them.
 *
 * Observers (the commentator and journalist subscribed to MatchEvent) are
 * modelled by the list of events they receive: an event is delivered only
 * while the match is subscribed.
 */
module MatchEngine {
  import opened Wrappers
  import opened Draws
  import opened Players
  import opened Roster
  import opened Fouls

  /** Which of the match's two teams: FirstTeam or SecondTeam. */
  datatype Side = First | Second

  function Other(s: Side): (r: Side)
  {
    if s == First then Second else First
  }

  const HalfLength: nat := 45
  const OvertimeLength: nat := 15
  /** A foul happens on one outcome of this many. */
  const FoulOdds: nat := 10
  /** An open-play attack scores on one outcome of this many. */
  const GoalOdds: nat := 5

  /** The messages the match publishes, as tags. */
  datatype Event =
    | MatchStarted
    | Infringement(side: Side)
    | RedCardShown(side: Side)
    | YellowCardShown(side: Side)
    | SecondYellowShown(side: Side)
    | Replaced(side: Side)
    | TechnicalDefeat(side: Side)
    | ForfeitDeclared
    | FreeKickAwarded
    | PenaltyAwarded
    | Goal
    | ShotBlocked
    | ScoreUpdate
    | Save(side: Side)
    | HalfTime
    | OvertimeAnnounced
    | OvertimeStart(period: nat)
    | OvertimeBreak
    | FinalWhistle(winner: Side)

  /** The messages observers received, latest last. */
  datatype Log = NoEvents | Delivered(earlier: Log, latest: Event)

  /**
   * A match in progress: both rosters, both scores, every player's stats, the
   * technical-defeat flag (with the side that suffered it), whether observers
   * are still subscribed, the events they received, and the minutes simulated.
   */
  datatype MatchState = MatchState(
    first: Team,
    second: Team,
    firstScore: nat,
    secondScore: nat,
    tally: Tally,
    defeated: Option<Side>,
    subscribed: bool,
    log: Log,
    minutes: nat)

  function TeamOf(m: MatchState, s: Side): (r: Team)
  {
    if s == First then m.first else m.second
  }

  function WithTeam(m: MatchState, s: Side, t: Team): (r: MatchState)
  {
    if s == First then m.(first := t) else m.(second := t)
  }

  function ScoreOf(m: MatchState, s: Side): (r: nat)
  {
    if s == First then m.firstScore else m.secondScore
  }

  /** How many result messages (the winner-and-score line of SimulateMatch) `log` holds. */
  function ResultCount(log: Log): (r: nat)
  {
    match log
    case NoEvents => 0
    case Delivered(earlier, latest) => ResultCount(earlier) + (if latest.FinalWhistle? then 1 else 0)
  }

  /** How many result messages the observers received. */
  function Whistles(m: MatchState): (r: nat)
  {
    ResultCount(m.log)
  }

  /** LogMatchEvent: every subscriber receives `e`; with none subscribed it goes nowhere. */
  function Emit(m: MatchState, e: Event): (r: MatchState)
    ensures r.first == m.first && r.second == m.second
    ensures r.firstScore == m.firstScore && r.secondScore == m.secondScore
    ensures r.tally == m.tally && r.defeated == m.defeated
    ensures r.subscribed == m.subscribed && r.minutes == m.minutes
    ensures Whistles(r) == Whistles(m) + (if m.subscribed && e.FinalWhistle? then 1 else 0)
  {
    if m.subscribed then m.(log := Delivered(m.log, e)) else m
  }

  /** `loser` suffered a technical defeat and the score is 1-0 to its opponent. */
  predicate IsForfeit(m: MatchState, loser: Side)
  {
    && m.defeated == Some(loser)
    && ScoreOf(m, loser) == 0
    && ScoreOf(m, Other(loser)) == 1
  }

  /** Neither score went down. */
  predicate ScoresKept(m: MatchState, r: MatchState)
  {
    m.firstScore <= r.firstScore && m.secondScore <= r.secondScore
  }

  /** Neither score went down and together they rose by at most one. */
  predicate AtMostOneGoal(m: MatchState, r: MatchState)
  {
    ScoresKept(m, r) && r.firstScore + r.secondScore <= m.firstScore + m.secondScore + 1
  }

  /** What every step keeps: the subscription, the result-message count, and growing stats. */
  ghost predicate Bookkept(m: MatchState, r: MatchState)
  {
    && r.subscribed == m.subscribed
    && Whistles(r) == Whistles(m)
    && TallyGrows(m.tally, r.tally)
  }

  /** The technical-defeat branch: the opponent's score is forced to 1, the loser's to 0. */
  function Forfeit(m: MatchState, loser: Side): (r: MatchState)
    ensures IsForfeit(r, loser)
    ensures m.subscribed ==> r.log.Delivered? && r.log.latest == ForfeitDeclared
    ensures r.first == m.first && r.second == m.second
    ensures r.tally == m.tally && r.minutes == m.minutes
    ensures Bookkept(m, r)
  {
    var m1 := Emit(m, TechnicalDefeat(loser));
    var m2 := if loser == First then m1.(secondScore := 1, firstScore := 0)
              else m1.(firstScore := 1, secondScore := 0);
    Emit(m2.(defeated := Some(loser)), ForfeitDeclared)
  }

  /** A forward picked at random and the position of the next unread draw. */
  datatype Pick = Pick(player: Option<Player>, next: nat)

  /** The sort keys Random.Next() hands to `n` forwards, starting at `pos`. */
  function ShuffleKeys(rs: Stream, pos: nat, n: nat): (keys: seq<nat>)
    ensures |keys| == n
    ensures forall i :: 0 <= i < n ==> keys[i] == Key(rs, pos + i)
    decreases n
  {
    if n == 0 then [] else [Key(rs, pos)] + ShuffleKeys(rs, pos + 1, n - 1)
  }

  /**
   * `team.OfType<Forward>().OrderBy(x => Random.Next()).FirstOrDefault()`:
   * one key draw per forward the team enumerates, benched or sent off alike,
   * and the forward holding the first smallest key.
   */
  function PickForward(t: Team, rs: Stream, pos: nat): (r: Pick)
    ensures r.next == pos + |Forwards(t)|
    ensures r.player.None? <==> |Forwards(t)| == 0
    ensures r.player.Some? ==> r.player.value in Members(t) && r.player.value.role == Forward
    ensures r.player.Some? ==>
              r.player.value == Forwards(t)[FirstMinIndex(ShuffleKeys(rs, pos, |Forwards(t)|))]
  {
    var fs := Forwards(t);
    if |fs| == 0 then Pick(None, pos)
    else
      var i := FirstMinIndex(ShuffleKeys(rs, pos, |fs|));
      assert fs[i] in fs;
      Pick(Some(fs[i]), pos + |fs|)
  }

  /** The state after a step, the next unread draw, and whether the period was cut short. */
  datatype Step = Step(m: MatchState, pos: nat, halted: bool)

  /**
   * A minute without a foul: on a 0 from the 5-way draw the picked forward
   * scores for the team that attacked this minute; otherwise the first
   * goalkeeper of the period's nominal defending team makes a save.
   */
  function OpenPlay(m: MatchState, attacking: Side, current: Side, shooter: Player,
                    rs: Stream, pos: nat): (r: Step)
    ensures !r.halted && r.pos == pos + 1
    ensures ScoreOf(r.m, current) == ScoreOf(m, current) + (if rs(pos) % GoalOdds == 0 then 1 else 0)
    ensures ScoreOf(r.m, Other(current)) == ScoreOf(m, Other(current))
    ensures rs(pos) % GoalOdds == 0 ==> StatsOf(r.m.tally, shooter) == Score(StatsOf(m.tally, shooter))
    ensures rs(pos) % GoalOdds == 0 ==> forall q :: q != shooter ==> StatsOf(r.m.tally, q) == StatsOf(m.tally, q)
    ensures rs(pos) % GoalOdds != 0 && FirstGoalkeeper(TeamOf(m, Other(attacking))).Some? ==>
              var keeper := FirstGoalkeeper(TeamOf(m, Other(attacking))).value;
              && StatsOf(r.m.tally, keeper) == Score(StatsOf(m.tally, keeper))
              && forall q :: q != keeper ==> StatsOf(r.m.tally, q) == StatsOf(m.tally, q)
    ensures rs(pos) % GoalOdds != 0 && FirstGoalkeeper(TeamOf(m, Other(attacking))).None? ==> r.m.tally == m.tally
    ensures r.m.first == m.first && r.m.second == m.second
    ensures r.m.defeated == m.defeated && r.m.minutes == m.minutes
    ensures Bookkept(m, r.m)
  {
    if Next(rs, pos, GoalOdds) == 0 then
      var m1 := Emit(m.(tally := ScorePlayer(m.tally, shooter)), Goal);
      var m2 := if current == First then m1.(firstScore := m1.firstScore + 1)
                else m1.(secondScore := m1.secondScore + 1);
      Step(Emit(m2, ScoreUpdate), pos + 1, false)
    else
      match FirstGoalkeeper(TeamOf(m, Other(attacking)))
      case None => Step(m, pos + 1, false)
      case Some(keeper) =>
        Step(Emit(m.(tally := ScorePlayer(m.tally, keeper)), Save(Other(attacking))), pos + 1, false)
  }

  /** A free kick or penalty: scored on a 0 from a 2-way draw, and always credited to SecondTeamScore. */
  function SetPieceShot(m: MatchState, shooter: Player, rs: Stream, pos: nat): (r: MatchState)
    ensures r.firstScore == m.firstScore
    ensures r.secondScore == m.secondScore + (if rs(pos) % 2 == 0 then 1 else 0)
    ensures rs(pos) % 2 == 0 ==> StatsOf(r.tally, shooter) == Score(StatsOf(m.tally, shooter))
    ensures rs(pos) % 2 == 0 ==> forall q :: q != shooter ==> StatsOf(r.tally, q) == StatsOf(m.tally, q)
    ensures rs(pos) % 2 != 0 ==> r.tally == m.tally
    ensures r.first == m.first && r.second == m.second
    ensures r.defeated == m.defeated && r.minutes == m.minutes
    ensures Bookkept(m, r)
  {
    if Next(rs, pos, 2) == 0 then
      var m1 := Emit(m.(tally := ScorePlayer(m.tally, shooter)), Goal);
      Emit(m1.(secondScore := m1.secondScore + 1), ScoreUpdate)
    else
      Emit(m, ShotBlocked)
  }

  /** The state and the next unread draw after a stretch of play that ignores halting. */
  datatype Played = Played(m: MatchState, pos: nat)

  /** A set piece the foul may have awarded: announced and shot only when `awarded`. */
  function Award(m: MatchState, awarded: bool, announcement: Event, shooter: Player,
                 rs: Stream, pos: nat): (r: Played)
    requires !announcement.FinalWhistle?
    ensures r.pos == pos + (if awarded then 1 else 0)
    ensures r.m.firstScore == m.firstScore
    ensures m.secondScore <= r.m.secondScore <= m.secondScore + (if awarded then 1 else 0)
    ensures r.m.first == m.first && r.m.second == m.second
    ensures r.m.defeated == m.defeated && r.m.minutes == m.minutes
    ensures Bookkept(m, r.m)
  {
    if awarded then Played(SetPieceShot(Emit(m, announcement), shooter, rs, pos), pos + 1)
    else Played(m, pos)
  }

  /** The free kick, then the penalty, each taken only if the foul awarded it. */
  function SetPieces(m: MatchState, shooter: Player, foul: Foul, rs: Stream, pos: nat): (r: Step)
    ensures !r.halted
    ensures r.pos == pos + (if foul.hasFreeKick then 1 else 0) + (if foul.hasPenalty then 1 else 0)
    ensures r.m.firstScore == m.firstScore
    ensures m.secondScore <= r.m.secondScore
    ensures r.m.secondScore <= m.secondScore + (if foul.hasFreeKick then 1 else 0) + (if foul.hasPenalty then 1 else 0)
    ensures r.m.first == m.first && r.m.second == m.second
    ensures r.m.defeated == m.defeated && r.m.minutes == m.minutes
    ensures Bookkept(m, r.m)
  {
    var kick := Award(m, foul.hasFreeKick, FreeKickAwarded, shooter, rs, pos);
    var penalty := Award(kick.m, foul.hasPenalty, PenaltyAwarded, shooter, rs, kick.pos);
    TallyGrowsTransitive(m.tally, kick.m.tally, penalty.m.tally);
    Step(penalty.m, penalty.pos, false)
  }

  /** The state after a disciplinary decision and whether it ended the period. */
  datatype Ruling = Ruling(m: MatchState, halted: bool)

  /**
   * A sent-off player must be substituted; when SubstitutePlayer reports
   * failure (the player is not in the starting list, or nobody is on the
   * bench) the fouling side loses by technical defeat.
   */
  function SendOff(m: MatchState, side: Side, p: Player): (r: Ruling)
    ensures r.halted <==> !(p in TeamOf(m, side).starting && |TeamOf(m, side).substitutes| > 0)
    ensures r.halted ==> IsForfeit(r.m, side) && TeamOf(r.m, side) == TeamOf(m, side)
    ensures !r.halted ==> r.m.firstScore == m.firstScore && r.m.secondScore == m.secondScore
    ensures !r.halted ==> r.m.defeated == m.defeated
    ensures !r.halted ==> TeamOf(r.m, side) == Substitute(TeamOf(m, side), p).team
    ensures TeamOf(r.m, Other(side)) == TeamOf(m, Other(side))
    ensures r.m.tally == m.tally && r.m.minutes == m.minutes
    ensures Bookkept(m, r.m)
  {
    var sub := Substitute(TeamOf(m, side), p);
    if !sub.done then Ruling(Forfeit(m, side), true)
    else Ruling(Emit(WithTeam(m, side, sub.team), Replaced(side)), false)
  }

  /**
   * The card branch. A red card sends the player off WITHOUT calling
   * ReceiveRedCard; a yellow card is booked, and a booking count of exactly 2
   * sends the player off too.
   */
  function Discipline(m: MatchState, side: Side, p: Player, card: Card): (r: Ruling)
    ensures card == Red ==> r.m.tally == m.tally
    ensures card == Yellow ==> StatsOf(r.m.tally, p) == ReceiveYellowCard(StatsOf(m.tally, p))
    ensures forall q :: q != p ==> StatsOf(r.m.tally, q) == StatsOf(m.tally, q)
    ensures r.halted ==> card == Red || StatsOf(r.m.tally, p).yellowCards == 2
    ensures var off := card == Red || StatsOf(r.m.tally, p).yellowCards == 2;
            r.halted <==> off && !(p in TeamOf(m, side).starting && |TeamOf(m, side).substitutes| > 0)
    ensures var off := card == Red || StatsOf(r.m.tally, p).yellowCards == 2;
            !r.halted ==> TeamOf(r.m, side) == if off then Substitute(TeamOf(m, side), p).team else TeamOf(m, side)
    ensures r.halted ==> IsForfeit(r.m, side)
    ensures !r.halted ==> r.m.firstScore == m.firstScore && r.m.secondScore == m.secondScore
    ensures !r.halted ==> r.m.defeated == m.defeated
    ensures TeamOf(r.m, Other(side)) == TeamOf(m, Other(side))
    ensures r.m.minutes == m.minutes
    ensures Bookkept(m, r.m)
  {
    if card == Red then
      SendOff(Emit(m, RedCardShown(side)), side, p)
    else
      var m1 := Emit(m.(tally := BookPlayer(m.tally, p)), YellowCardShown(side));
      if StatsOf(m1.tally, p).yellowCards == 2 then SendOff(Emit(m1, SecondYellowShown(side)), side, p)
      else Ruling(m1, false)
  }

  /**
   * The referee's ruling on `offender`'s foul, the card it brings, and any set
   * piece, taken by the minute's attacking forward.
   */
  function Adjudicate(m: MatchState, fouling: Side, offender: Player, attacker: Player,
                      rs: Stream, pos: nat): (r: Step)
    ensures r.halted ==> IsForfeit(r.m, fouling)
    ensures !r.halted ==> r.m.defeated == m.defeated
    ensures !r.halted ==> AtMostOneGoal(m, r.m) && r.m.firstScore == m.firstScore
    ensures r.pos > pos
    ensures r.m.minutes == m.minutes
    ensures Bookkept(m, r.m)
  {
    var ruling := CallFoul(rs, pos, offender, TeamOf(m, fouling).name);
    var decided := Discipline(Emit(m, Infringement(fouling)), fouling, offender, ruling.foul.card);
    if decided.halted then Step(decided.m, ruling.next, true)
    else
      var taken := SetPieces(decided.m, attacker, ruling.foul, rs, ruling.next);
      TallyGrowsTransitive(m.tally, decided.m.tally, taken.m.tally);
      taken
  }

  /**
   * A minute with a foul: a 2-way draw picks the fouling team between the
   * period's nominal attacker and defender, and a forward of it is picked to
   * have committed the foul (no forward: nothing happens).
   */
  function FoulPlay(m: MatchState, attacking: Side, attacker: Player, rs: Stream, pos: nat): (r: Step)
    ensures r.halted ==> r.m.defeated.Some? && IsForfeit(r.m, r.m.defeated.value)
    ensures !r.halted ==> r.m.defeated == m.defeated
    ensures !r.halted ==> AtMostOneGoal(m, r.m) && r.m.firstScore == m.firstScore
    ensures r.pos > pos
    ensures r.m.minutes == m.minutes
    ensures Bookkept(m, r.m)
  {
    var fouling := if Next(rs, pos, 2) == 0 then attacking else Other(attacking);
    var pick := PickForward(TeamOf(m, fouling), rs, pos + 1);
    match pick.player
    case None => Step(m, pick.next, false)
    case Some(offender) => Adjudicate(m, fouling, offender, attacker, rs, pick.next)
  }

  /**
   * One iteration of SimulateHalfAsync's loop: a 2-way draw picks this
   * minute's attacking team, a forward of it is picked (no forward: nothing
   * happens), and a 0 from the 10-way draw makes it a foul minute.
   */
  function Minute(m: MatchState, attacking: Side, rs: Stream, pos: nat): (r: Step)
    ensures r.m.minutes == m.minutes + 1
    ensures r.halted ==> r.m.defeated.Some? && IsForfeit(r.m, r.m.defeated.value)
    ensures !r.halted ==> r.m.defeated == m.defeated && AtMostOneGoal(m, r.m)
    ensures r.pos > pos
    ensures Bookkept(m, r.m)
  {
    var m0 := m.(minutes := m.minutes + 1);
    var current := MinuteSide(attacking, rs, pos);
    var pick := PickForward(TeamOf(m, current), rs, pos + 1);
    match pick.player
    case None => Step(m0, pick.next, false)
    case Some(forward) => Attack(m0, attacking, current, forward, rs, pick.next)
  }

  /** The side attacking this minute: the period's nominal attacker on a 0 from the 2-way draw. */
  function MinuteSide(attacking: Side, rs: Stream, pos: nat): (r: Side)
    ensures r == attacking <==> rs(pos) % 2 == 0
    ensures r != attacking ==> r == Other(attacking)
  {
    if Next(rs, pos, 2) == 0 then attacking else Other(attacking)
  }

  /**
   * The picked forward's attack: a foul on a 0 from the 10-way draw,
   * otherwise open play, which scores for the minute's attacking side
   * exactly on a 0 from the 5-way draw that follows.
   */
  function Attack(m: MatchState, attacking: Side, current: Side, forward: Player,
                  rs: Stream, pos: nat): (r: Step)
    ensures r.halted ==> r.m.defeated.Some? && IsForfeit(r.m, r.m.defeated.value)
    ensures !r.halted ==> r.m.defeated == m.defeated && AtMostOneGoal(m, r.m)
    ensures r.pos > pos && r.m.minutes == m.minutes
    ensures Bookkept(m, r.m)
    ensures rs(pos) % FoulOdds != 0 ==>
              && !r.halted && r.m.first == m.first && r.m.second == m.second
              && r.m.defeated == m.defeated
              && ScoreOf(r.m, current) == ScoreOf(m, current) + (if rs(pos + 1) % GoalOdds == 0 then 1 else 0)
              && ScoreOf(r.m, Other(current)) == ScoreOf(m, Other(current))
  {
    if Next(rs, pos, FoulOdds) == 0 then FoulPlay(m, attacking, forward, rs, pos + 1)
    else OpenPlay(m, attacking, current, forward, rs, pos + 1)
  }

  /**
   * SimulateHalfAsync(attackingTeam, defendingTeam, n): up to `n` minutes; a
   * technical defeat returns at once. The loop does not look at an earlier
   * technical defeat, so a period started after one is played in full.
   */
  function Period(m: MatchState, attacking: Side, n: nat, rs: Stream, pos: nat): (r: Step)
    ensures r.halted ==> r.m.defeated.Some? && IsForfeit(r.m, r.m.defeated.value)
    ensures r.halted ==> m.minutes < r.m.minutes <= m.minutes + n
    ensures !r.halted ==> r.m.minutes == m.minutes + n && r.m.defeated == m.defeated
    ensures !r.halted ==> ScoresKept(m, r.m)
    ensures !r.halted ==> r.m.firstScore + r.m.secondScore <= m.firstScore + m.secondScore + n
    ensures r.pos >= pos
    ensures n > 0 && Minute(m, attacking, rs, pos).halted ==> r == Minute(m, attacking, rs, pos)
    ensures Bookkept(m, r.m)
    decreases n, 1
  {
    if n == 0 then Step(m, pos, false) else PlayOn(m, attacking, n, rs, pos)
  }

  /**
   * The loop of SimulateHalfAsync with `n` minutes still to play: one minute,
   * then, unless it ended in a technical defeat, the remaining `n - 1`.
   */
  function PlayOn(m: MatchState, attacking: Side, n: nat, rs: Stream, pos: nat): (r: Step)
    requires n > 0
    ensures r.halted ==> r.m.defeated.Some? && IsForfeit(r.m, r.m.defeated.value)
    ensures r.halted ==> m.minutes < r.m.minutes <= m.minutes + n
    ensures !r.halted ==> r.m.minutes == m.minutes + n && r.m.defeated == m.defeated
    ensures !r.halted ==> ScoresKept(m, r.m)
    ensures !r.halted ==> r.m.firstScore + r.m.secondScore <= m.firstScore + m.secondScore + n
    ensures r.pos > pos
    ensures Minute(m, attacking, rs, pos).halted ==> r == Minute(m, attacking, rs, pos)
    ensures Bookkept(m, r.m)
    decreases n, 0
  {
    var s := Minute(m, attacking, rs, pos);
    if s.halted then s
    else
      var rest := Period(s.m, attacking, n - 1, rs, s.pos);
      TallyGrowsTransitive(m.tally, s.m.tally, rest.m.tally);
      rest
  }

  /**
   * SimulateOvertime: two 15-minute periods, the first team attacking in both.
   * The second is played even when the first ended in a technical defeat.
   */
  function Overtime(m: MatchState, rs: Stream, pos: nat): (r: Played)
    ensures m.minutes + 2 <= r.m.minutes <= m.minutes + 2 * OvertimeLength
    ensures m.defeated.Some? ==> r.m.defeated.Some?
    ensures r.m.defeated.None? ==> m.defeated.None? && r.m.minutes == m.minutes + 2 * OvertimeLength
    ensures r.m.defeated.None? ==> ScoresKept(m, r.m)
    ensures r.pos >= pos
    ensures Bookkept(m, r.m)
  {
    var p1 := Period(Emit(m, OvertimeStart(1)), First, OvertimeLength, rs, pos);
    var between := Emit(Emit(p1.m, OvertimeBreak), OvertimeStart(2));
    var p2 := Period(between, First, OvertimeLength, rs, p1.pos);
    Played(p2.m, p2.pos)
  }

  /** The check after which a match ended. */
  datatype Phase = FirstHalf | SecondHalf | FirstOvertime

  /** How the match ended: a technical defeat found by CheckTechnicalDefeat, or the end of play. */
  datatype Finish = DefeatDetected(after: Phase) | FullTime(overtime: bool)

  datatype MatchResult = MatchResult(m: MatchState, pos: nat, finish: Finish)

  /** The FootballMatch constructor: scores 0-0, both observers subscribed; then the kick-off message. */
  function Opening(first: Team, second: Team, tally: Tally): (r: MatchState)
    ensures Undecided(r, 0) && Whistles(r) == 0
    ensures r.firstScore == 0 && r.secondScore == 0
    ensures r.first == first && r.second == second && r.tally == tally
  {
    MatchState(first, second, 0, 0, tally, None, true, Delivered(NoEvents, MatchStarted), 0)
  }

  /** CheckTechnicalDefeat found the flag: the result message is delivered, then observers unsubscribe. */
  function EndByDefeat(m: MatchState, pos: nat, after: Phase): (r: MatchResult)
    ensures r.m.firstScore == m.firstScore && r.m.secondScore == m.secondScore
    ensures r.m.defeated == m.defeated && r.m.minutes == m.minutes && r.m.tally == m.tally
    ensures !r.m.subscribed && r.pos == pos && r.finish == DefeatDetected(after)
    ensures Whistles(r.m) == Whistles(m) + (if m.subscribed then 1 else 0)
    ensures m.subscribed && m.defeated.Some? && IsForfeit(m, m.defeated.value) ==>
              r.m.log == Delivered(m.log, FinalWhistle(Other(m.defeated.value)))
  {
    MatchResult(Emit(m, FinalWhistle(Winner(m))).(subscribed := false), pos, DefeatDetected(after))
  }

  /** The regular end: observers unsubscribe BEFORE the result message, which reaches nobody. */
  function EndAtFullTime(m: MatchState, pos: nat, overtime: bool): (r: MatchResult)
    ensures r.m.firstScore == m.firstScore && r.m.secondScore == m.secondScore
    ensures r.m.defeated == m.defeated && r.m.minutes == m.minutes && r.m.tally == m.tally
    ensures !r.m.subscribed && r.pos == pos && r.finish == FullTime(overtime)
    ensures r.m.log == m.log && Whistles(r.m) == Whistles(m)
  {
    MatchResult(Emit(m.(subscribed := false), FinalWhistle(Winner(m))), pos, FullTime(overtime))
  }

  /** The side the result message names: the first team only with a strictly higher score. */
  function Winner(m: MatchState): (w: Side)
    ensures w == First <==> m.firstScore > m.secondScore
    ensures ScoreOf(m, w) >= ScoreOf(m, Other(w))
  {
    if m.firstScore > m.secondScore then First else Second
  }

  /** What a match in play looks like before its first technical defeat, after `minutes` minutes. */
  predicate Undecided(m: MatchState, minutes: nat)
  {
    m.defeated.None? && m.subscribed && m.minutes == minutes
  }

  /**
   * The level-score branch of SimulateMatch: SimulateOvertime, the check, and
   * SimulateOvertime again with no check after it.
   */
  function ExtraTime(m: MatchState, rs: Stream, pos: nat): (r: MatchResult)
    requires Undecided(m, 2 * HalfLength)
    ensures r.finish == DefeatDetected(FirstOvertime) || r.finish == FullTime(true)
    ensures r.finish.DefeatDetected? ==> r.m.defeated.Some?
    ensures r.finish == FullTime(true) ==>
              2 * HalfLength + 2 * OvertimeLength + 2 <= r.m.minutes <= 2 * HalfLength + 4 * OvertimeLength
    ensures r.finish.DefeatDetected? ==> 2 * HalfLength + 2 <= r.m.minutes <= 2 * HalfLength + 2 * OvertimeLength
    ensures r.m.defeated.None? ==>
              r.finish == FullTime(true) && r.m.minutes == 2 * HalfLength + 4 * OvertimeLength
    ensures !r.m.subscribed
    ensures Whistles(r.m) == Whistles(m) + (if r.finish.DefeatDetected? then 1 else 0)
    ensures TallyGrows(m.tally, r.m.tally)
    ensures r.pos >= pos
  {
    OvertimeCalls(m, 2, rs, pos)
  }

  /**
   * The SimulateOvertime calls of a level match, `left` of them still to
   * come: CheckTechnicalDefeat runs after the first call and not after the
   * second.
   */
  function OvertimeCalls(m: MatchState, left: nat, rs: Stream, pos: nat): (r: MatchResult)
    requires 1 <= left <= 2 && m.defeated.None? && m.subscribed
    ensures r.finish == DefeatDetected(FirstOvertime) || r.finish == FullTime(true)
    ensures r.finish.DefeatDetected? ==> r.m.defeated.Some?
    ensures r.finish == FullTime(true) ==>
              m.minutes + 2 * (left - 1) * OvertimeLength + 2 <= r.m.minutes <= m.minutes + 2 * left * OvertimeLength
    ensures r.finish.DefeatDetected? ==> m.minutes + 2 <= r.m.minutes <= m.minutes + 2 * OvertimeLength
    ensures r.m.defeated.None? ==>
              r.finish == FullTime(true) && r.m.minutes == m.minutes + 2 * left * OvertimeLength
    ensures !r.m.subscribed
    ensures Whistles(r.m) == Whistles(m) + (if r.finish.DefeatDetected? then 1 else 0)
    ensures TallyGrows(m.tally, r.m.tally)
    ensures r.pos >= pos
    decreases left
  {
    var before := if left == 2 then Emit(Emit(m, OvertimeAnnounced), OvertimeStart(1))
                  else Emit(Emit(m, OvertimeBreak), OvertimeStart(2));
    var o := Overtime(before, rs, pos);
    if left == 1 then EndAtFullTime(o.m, o.pos, true)
    else if o.m.defeated.Some? then EndByDefeat(o.m, o.pos, FirstOvertime)
    else
      var rest := OvertimeCalls(o.m, 1, rs, o.pos);
      TallyGrowsTransitive(m.tally, o.m.tally, rest.m.tally);
      rest
  }

  /** SimulateMatch after a first half without technical defeat. */
  function SecondHalfOn(m: MatchState, rs: Stream, pos: nat): (r: MatchResult)
    requires Undecided(m, HalfLength)
  {
    var h2 := Period(Emit(m, HalfTime), Second, HalfLength, rs, pos);
    if h2.m.defeated.Some? then EndByDefeat(h2.m, h2.pos, SecondHalf)
    else if h2.m.firstScore != h2.m.secondScore then EndAtFullTime(h2.m, h2.pos, false)
    else ExtraTime(h2.m, rs, h2.pos)
  }

  /**
   * FootballMatch.SimulateMatch: two 45-minute halves (the second team
   * nominally attacking in the second), each followed by a technical-defeat
   * check; on a level score, SimulateOvertime twice, with a check only after
   * the first call. What it guarantees is stated by the lemmas below.
   */
  function SimulateMatch(first: Team, second: Team, tally: Tally, rs: Stream, pos: nat): (r: MatchResult)
  {
    var h1 := Period(Opening(first, second, tally), First, HalfLength, rs, pos);
    if h1.m.defeated.Some? then EndByDefeat(h1.m, h1.pos, FirstHalf)
    else SecondHalfOn(h1.m, rs, h1.pos)
  }

  /**
   * How a match ends: a technical defeat in a 45-minute half is detected right
   * after that half, with the score 1-0 to the opponent; a match without a
   * technical defeat is played to full time.
   */
  lemma MatchEnds(first: Team, second: Team, tally: Tally, rs: Stream, pos: nat)
    ensures var r := SimulateMatch(first, second, tally, rs, pos);
            r.finish == DefeatDetected(FirstHalf) ==>
              r.m.defeated.Some? && IsForfeit(r.m, r.m.defeated.value) && 1 <= r.m.minutes <= HalfLength
    ensures var r := SimulateMatch(first, second, tally, rs, pos);
            r.finish == DefeatDetected(SecondHalf) ==>
              r.m.defeated.Some? && IsForfeit(r.m, r.m.defeated.value) &&
              HalfLength < r.m.minutes <= 2 * HalfLength
    ensures var r := SimulateMatch(first, second, tally, rs, pos);
            r.finish.DefeatDetected? ==> r.m.defeated.Some?
    ensures var r := SimulateMatch(first, second, tally, rs, pos);
            r.m.defeated.None? ==> r.finish.FullTime?
  {
    var h1 := Period(Opening(first, second, tally), First, HalfLength, rs, pos);
    if h1.m.defeated.Some? {
      var r := EndByDefeat(h1.m, h1.pos, FirstHalf);
      assert IsForfeit(r.m, r.m.defeated.value);
    } else {
      SecondHalfEnds(h1.m, rs, h1.pos);
      SecondHalfForfeit(h1.m, rs, h1.pos);
    }
  }

  /**
   * The result message reaches the observers exactly once when a technical
   * defeat is detected, and never otherwise: on the regular path they are
   * unsubscribed before it is published.
   */
  lemma ResultMessageOnlyOnDefeat(first: Team, second: Team, tally: Tally, rs: Stream, pos: nat)
    ensures var r := SimulateMatch(first, second, tally, rs, pos);
            Whistles(r.m) == if r.finish.DefeatDetected? then 1 else 0
    ensures !SimulateMatch(first, second, tally, rs, pos).m.subscribed
  {
    var h1 := Period(Opening(first, second, tally), First, HalfLength, rs, pos);
    if h1.m.defeated.None? {
      SecondHalfBookkeeping(h1.m, rs, h1.pos);
    }
  }

  /** Goals and cards recorded during a match are never taken back. */
  lemma MatchStatsOnlyGrow(first: Team, second: Team, tally: Tally, rs: Stream, pos: nat)
    ensures TallyGrows(tally, SimulateMatch(first, second, tally, rs, pos).m.tally)
  {
    var h1 := Period(Opening(first, second, tally), First, HalfLength, rs, pos);
    if h1.m.defeated.None? {
      var rest := SecondHalfOn(h1.m, rs, h1.pos);
      SecondHalfBookkeeping(h1.m, rs, h1.pos);
      TallyGrowsTransitive(tally, h1.m.tally, rest.m.tally);
    }
  }

  /** After the second half, only a technical defeat in it or in the first overtime call is detected. */
  lemma SecondHalfEnds(m: MatchState, rs: Stream, pos: nat)
    requires Undecided(m, HalfLength)
    ensures var r := SecondHalfOn(m, rs, pos);
            r.finish.DefeatDetected? ==>
              (r.finish.after.SecondHalf? || r.finish.after.FirstOvertime?) && r.m.defeated.Some?
    ensures var r := SecondHalfOn(m, rs, pos);
            r.m.defeated.None? ==> r.finish.FullTime?
  {
    var h2 := Period(Emit(m, HalfTime), Second, HalfLength, rs, pos);
    if h2.m.defeated.None? && h2.m.firstScore == h2.m.secondScore {
      var x := ExtraTime(h2.m, rs, h2.pos);
    }
  }

  /** The result-message count and the stats after the second half and any overtime. */
  lemma SecondHalfBookkeeping(m: MatchState, rs: Stream, pos: nat)
    requires Undecided(m, HalfLength)
    ensures var r := SecondHalfOn(m, rs, pos);
            Whistles(r.m) == Whistles(m) + (if r.finish.DefeatDetected? then 1 else 0)
    ensures TallyGrows(m.tally, SecondHalfOn(m, rs, pos).m.tally)
    ensures !SecondHalfOn(m, rs, pos).m.subscribed
  {
    var h2 := Period(Emit(m, HalfTime), Second, HalfLength, rs, pos);
    if h2.m.defeated.None? && h2.m.firstScore == h2.m.secondScore {
      var x := ExtraTime(h2.m, rs, h2.pos);
      TallyGrowsTransitive(m.tally, h2.m.tally, x.m.tally);
    }
  }

  /**
   * A match that is played out lasts 90 minutes with a decisive score, or 150
   * when regulation ended level: four 15-minute overtime periods, since
   * SimulateOvertime, itself two periods, is called twice.
   */
  lemma MatchDuration(first: Team, second: Team, tally: Tally, rs: Stream, pos: nat)
    ensures var r := SimulateMatch(first, second, tally, rs, pos);
            r.finish == FullTime(false) ==>
              r.m.minutes == 2 * HalfLength && r.m.defeated.None? && r.m.firstScore != r.m.secondScore
    ensures var r := SimulateMatch(first, second, tally, rs, pos);
            r.finish == FullTime(true) ==>
              2 * HalfLength + 2 * OvertimeLength + 2 <= r.m.minutes <= 2 * HalfLength + 4 * OvertimeLength
    ensures var r := SimulateMatch(first, second, tally, rs, pos);
            r.finish == FullTime(true) && r.m.defeated.None? ==>
              r.m.minutes == 2 * HalfLength + 4 * OvertimeLength
    ensures var r := SimulateMatch(first, second, tally, rs, pos);
            r.finish == DefeatDetected(FirstOvertime) ==>
              2 * HalfLength + 2 <= r.m.minutes <= 2 * HalfLength + 2 * OvertimeLength
  {
    var h1 := Period(Opening(first, second, tally), First, HalfLength, rs, pos);
    if h1.m.defeated.None? {
      SecondHalfDuration(h1.m, rs, h1.pos);
    }
  }

  /** A technical defeat detected after the second half happened within it. */
  lemma SecondHalfForfeit(m: MatchState, rs: Stream, pos: nat)
    requires Undecided(m, HalfLength)
    ensures var r := SecondHalfOn(m, rs, pos);
            r.finish == DefeatDetected(SecondHalf) ==>
              r.m.defeated.Some? && IsForfeit(r.m, r.m.defeated.value) &&
              HalfLength < r.m.minutes <= 2 * HalfLength
  {
    var h2 := Period(Emit(m, HalfTime), Second, HalfLength, rs, pos);
    if h2.m.defeated.None? && h2.m.firstScore == h2.m.secondScore {
      var x := ExtraTime(h2.m, rs, h2.pos);
      assert x.finish != DefeatDetected(SecondHalf);
    }
  }

  lemma SecondHalfDuration(m: MatchState, rs: Stream, pos: nat)
    requires Undecided(m, HalfLength)
    ensures var r := SecondHalfOn(m, rs, pos);
            r.finish == FullTime(false) ==>
              r.m.minutes == 2 * HalfLength && r.m.defeated.None? && r.m.firstScore != r.m.secondScore
    ensures var r := SecondHalfOn(m, rs, pos);
            r.finish == FullTime(true) ==>
              2 * HalfLength + 2 * OvertimeLength + 2 <= r.m.minutes <= 2 * HalfLength + 4 * OvertimeLength
    ensures var r := SecondHalfOn(m, rs, pos);
            r.finish == FullTime(true) && r.m.defeated.None? ==>
              r.m.minutes == 2 * HalfLength + 4 * OvertimeLength
    ensures var r := SecondHalfOn(m, rs, pos);
            r.finish == DefeatDetected(FirstOvertime) ==>
              2 * HalfLength + 2 <= r.m.minutes <= 2 * HalfLength + 2 * OvertimeLength
  {
  }
}

=== FILE: fixtures.dfy ===
/**
 * Tournament scheduling: the round-robin pairs of GenerateMatches and the
 * rotation of commentators, referees and journalists over the matches.
 * Officials are indices into their lists; only the list sizes matter.
 */
module Fixtures {
  import opened Wrappers

  /** How many commentators, referees and journalists the tournament has. */
  datatype Pools = Pools(commentators: nat, referees: nat, journalists: nat)

  /** currentCommentatorIndex, currentRefereeIndex and currentJournalistIndex. */
  datatype Cursor = Cursor(commentator: nat, referee: nat, journalist: nat)

  /** The constructor sets every index to 0 (the journalist one by default). */
  const Start := Cursor(0, 0, 0)

  /** The officials of one match, as indices into their lists. */
  datatype Officials = Officials(commentator: nat, referee: nat, journalist: nat)

  /** Which list's indexer threw ArgumentOutOfRangeException. */
  datatype PoolError = NoCommentator | NoReferee | NoJournalist

  datatype Assignment = Assignment(officials: Officials, next: Cursor)

  /**
   * GetNextCommentator, GetNextReferee and GetNextJournalist, in that order
   * (the argument order of `new FootballMatch`). Each reads its list at the
   * current index; GetNextJournalist then advances the REFEREE index, modulo
   * the number of journalists, and never moves the journalist index.
   */
  function NextOfficials(p: Pools, c: Cursor): (r: Result<Assignment, PoolError>)
    ensures r.Ok? <==> c.commentator < p.commentators && c.referee < p.referees && c.journalist < p.journalists
    ensures r == Err(NoCommentator) <==> c.commentator >= p.commentators
    ensures r == Err(NoReferee) <==> c.commentator < p.commentators && c.referee >= p.referees
    ensures r.Ok? ==> r.value.officials == Officials(c.commentator, c.referee, c.journalist)
    ensures r.Ok? ==> r.value.next.journalist == c.journalist
    ensures r.Ok? ==> r.value.next.commentator < p.commentators && r.value.next.referee < p.journalists
  {
    if c.commentator >= p.commentators then Err(NoCommentator)
    else if c.referee >= p.referees then Err(NoReferee)
    else if c.journalist >= p.journalists then Err(NoJournalist)
    else
      var commentator := (c.commentator + 1) % p.commentators;
      var referee := (c.referee + 1) % p.referees;
      Ok(Assignment(Officials(c.commentator, c.referee, c.journalist),
                    Cursor(commentator, (referee + 1) % p.journalists, c.journalist)))
  }

  /** A cursor from which no official lookup can fail. */
  predicate Healthy(p: Pools, c: Cursor)
  {
    && c.commentator < p.commentators
    && c.referee < p.journalists <= p.referees
    && c.journalist < p.journalists
  }

  /** With no fewer referees than journalists, the rotation stays in range. */
  lemma NextOfficialsStaysHealthy(p: Pools, c: Cursor)
    requires Healthy(p, c)
    ensures NextOfficials(p, c).Ok? && Healthy(p, NextOfficials(p, c).value.next)
    ensures NextOfficials(p, c).value.next.commentator == (c.commentator + 1) % p.commentators
  {
  }

  /** The pairs (i, j) with `from` <= i < j < n, in the order of GenerateMatches' two loops. */
  function PairsFrom(from: nat, n: nat): (r: seq<(nat, nat)>)
    decreases n - from
  {
    if from + 1 >= n then [] else Row(from, from + 1, n) + PairsFrom(from + 1, n)
  }

  /** The inner loop: (i, j) for j from `j` up to n - 1. */
  function Row(i: nat, j: nat, n: nat): (r: seq<(nat, nat)>)
    decreases n - j
  {
    if j >= n then [] else [(i, j)] + Row(i, j + 1, n)
  }

  /**
   * The initial fixtures of n teams: GenerateMatches pairs teams[i] (first)
   * with teams[j] for every i < j, once each, in lexicographic order.
   */
  function Pairs(n: nat): (r: seq<(nat, nat)>)
    ensures |r| == n * (n - 1) / 2
    ensures forall x :: x in r <==> x.0 < x.1 < n
    ensures Ascending(r)
  {
    PairsFromCount(0, n);
    TriangularClosed(n);
    PairsFromMembers(0, n);
    PairsFromAscending(0, n);
    PairsFrom(0, n)
  }

  /** Lexicographic order on pairs. */
  predicate LexLess(x: (nat, nat), y: (nat, nat))
  {
    x.0 < y.0 || (x.0 == y.0 && x.1 < y.1)
  }

  /** Strictly increasing in lexicographic order, hence free of repetitions. */
  predicate Ascending(s: seq<(nat, nat)>)
  {
    forall k, l :: 0 <= k < l < |s| ==> LexLess(s[k], s[l])
  }

  lemma {:induction false} RowLength(i: nat, j: nat, n: nat)
    requires j <= n
    ensures |Row(i, j, n)| == n - j
    decreases n - j
  {
    if j < n {
      RowLength(i, j + 1, n);
    }
  }

  lemma {:induction false} RowMembers(i: nat, j: nat, n: nat)
    ensures forall x :: x in Row(i, j, n) <==> x.0 == i && j <= x.1 < n
    decreases n - j
  {
    if j < n {
      RowMembers(i, j + 1, n);
      assert Row(i, j, n) == [(i, j)] + Row(i, j + 1, n);
    }
  }

  lemma {:induction false} RowAscending(i: nat, j: nat, n: nat)
    ensures Ascending(Row(i, j, n))
    decreases n - j
  {
    if j < n {
      RowAscending(i, j + 1, n);
      RowMembers(i, j + 1, n);
      var s, rest := Row(i, j, n), Row(i, j + 1, n);
      assert s == [(i, j)] + rest;
      forall k, l | 0 <= k < l < |s|
        ensures LexLess(s[k], s[l])
      {
        assert s[l] == rest[l - 1];
        if k > 0 {
          assert s[k] == rest[k - 1];
        } else {
          assert s[l] in rest;
        }
      }
    }
  }

  lemma {:induction false} AscendingConcat(a: seq<(nat, nat)>, b: seq<(nat, nat)>)
    requires Ascending(a) && Ascending(b)
    requires forall x, y :: x in a && y in b ==> LexLess(x, y)
    ensures Ascending(a + b)
  {
    var s := a + b;
    forall k, l | 0 <= k < l < |s|
      ensures LexLess(s[k], s[l])
    {
      if l < |a| {
        assert s[k] == a[k] && s[l] == a[l];
      } else if k >= |a| {
        assert s[k] == b[k - |a|] && s[l] == b[l - |a|];
      } else {
        assert s[k] in a && s[l] in b;
      }
    }
  }

  /** 0 + 1 + ... + (m - 1). */
  function Triangular(m: nat): (r: nat)
  {
    if m == 0 then 0 else (m - 1) + Triangular(m - 1)
  }

  lemma {:induction false} TriangularClosed(m: nat)
    ensures Triangular(m) == m * (m - 1) / 2
  {
    if m > 0 {
      TriangularClosed(m - 1);
      var k := m - 1;
      assert m * (m - 1) == 2 * k + k * (k - 1);
    }
  }

  lemma {:induction false} PairsFromCount(from: nat, n: nat)
    requires from <= n
    ensures |PairsFrom(from, n)| == Triangular(n - from)
    decreases n - from
  {
    if from + 1 < n {
      RowLength(from, from + 1, n);
      PairsFromCount(from + 1, n);
      assert PairsFrom(from, n) == Row(from, from + 1, n) + PairsFrom(from + 1, n);
      assert Triangular(n - from) == (n - from - 1) + Triangular(n - (from + 1));
    } else if from < n {
      assert Triangular(n - from) == Triangular(1) == 0;
    }
  }

  /** Exactly the pairs i < j < n with i >= from. */
  lemma {:induction false} PairsFromMembers(from: nat, n: nat)
    ensures forall x :: x in PairsFrom(from, n) <==> from <= x.0 < x.1 < n
    decreases n - from
  {
    if from + 1 < n {
      RowMembers(from, from + 1, n);
      PairsFromMembers(from + 1, n);
      assert PairsFrom(from, n) == Row(from, from + 1, n) + PairsFrom(from + 1, n);
    }
  }

  /** Strictly increasing lexicographically. */
  lemma {:induction false} PairsFromAscending(from: nat, n: nat)
    ensures Ascending(PairsFrom(from, n))
    decreases n - from
  {
    if from + 1 < n {
      RowAscending(from, from + 1, n);
      RowMembers(from, from + 1, n);
      PairsFromAscending(from + 1, n);
      PairsFromMembers(from + 1, n);
      AscendingConcat(Row(from, from + 1, n), PairsFrom(from + 1, n));
      assert PairsFrom(from, n) == Row(from, from + 1, n) + PairsFrom(from + 1, n);
    }
  }

  /** One fixture: teams[first] against teams[second] with its officials. */
  datatype Fixture = Fixture(first: nat, second: nat, officials: Officials)

  datatype Schedule = Schedule(fixtures: seq<Fixture>, next: Cursor)

  /**
   * The constructor's GenerateMatches: officials for each pair in turn; the
   * first lookup that throws aborts the construction.
   */
  function Assign(pairs: seq<(nat, nat)>, p: Pools, c: Cursor): (r: Result<Schedule, PoolError>)
    ensures r.Ok? ==> |r.value.fixtures| == |pairs|
    ensures r.Ok? ==> forall k :: 0 <= k < |pairs| ==>
              r.value.fixtures[k].first == pairs[k].0 && r.value.fixtures[k].second == pairs[k].1
    ensures |pairs| > 0 ==> (r == Err(NoCommentator) <==> c.commentator >= p.commentators)
  {
    if |pairs| == 0 then Ok(Schedule([], c))
    else match NextOfficials(p, c)
      case Err(e) => Err(e)
      case Ok(a) =>
        match Assign(pairs[1..], p, a.next)
        case Err(e) => Err(e)
        case Ok(s) => Ok(Schedule([Fixture(pairs[0].0, pairs[0].1, a.officials)] + s.fixtures, s.next))
  }

  /**
   * With at least one commentator and 0 < journalists <= referees, scheduling
   * never throws: commentators rotate round robin, every match gets the
   * journalist at the unchanging journalist index, and the cursor stays healthy.
   */
  lemma {:induction false} AssignSucceeds(pairs: seq<(nat, nat)>, p: Pools, c: Cursor)
    requires Healthy(p, c)
    ensures Assign(pairs, p, c).Ok?
    ensures Healthy(p, Assign(pairs, p, c).value.next)
    ensures var f := Assign(pairs, p, c).value.fixtures;
            |f| > 0 ==> f[0].officials.commentator == c.commentator
    ensures var f := Assign(pairs, p, c).value.fixtures;
            forall k :: 0 <= k < |f| - 1 ==>
              f[k + 1].officials.commentator == (f[k].officials.commentator + 1) % p.commentators
    ensures var f := Assign(pairs, p, c).value.fixtures;
            forall k :: 0 <= k < |f| ==> f[k].officials.journalist == c.journalist
  {
    if |pairs| > 0 {
      NextOfficialsStaysHealthy(p, c);
      var a := NextOfficials(p, c).value;
      AssignSucceeds(pairs[1..], p, a.next);
      var f := Assign(pairs, p, c).value.fixtures;
      var rest := Assign(pairs[1..], p, a.next).value.fixtures;
      assert f == [Fixture(pairs[0].0, pairs[0].1, a.officials)] + rest;
    }
  }

  /** The healthy case for a fresh tournament. */
  lemma ScheduleSucceeds(n: nat, p: Pools)
    requires p.commentators > 0 && 0 < p.journalists <= p.referees
    ensures Assign(Pairs(n), p, Start).Ok?
    ensures var f := Assign(Pairs(n), p, Start).value.fixtures;
            forall k :: 0 <= k < |f| ==> f[k].officials.journalist == 0
  {
    AssignSucceeds(Pairs(n), p, Start);
  }

  /**
   * GetNextJournalist's misplaced index: with at most two referees and more
   * journalists than referees, the second match's referee lookup is out of
   * range, so a tournament of three or more teams cannot even be constructed.
   */
  lemma {:induction false} FewRefereesThrow(pairs: seq<(nat, nat)>, p: Pools)
    requires p.commentators > 0 && p.referees <= 2 && p.referees < p.journalists
    requires |pairs| >= 2
    ensures Assign(pairs, p, Start) == Err(NoReferee)
  {
    if p.referees > 0 {
      var a := NextOfficials(p, Start);
      assert a.Ok?;
      assert a.value.next.referee == p.referees;
      assert NextOfficials(p, a.value.next) == Err(NoReferee);
      assert Assign(pairs[1..], p, a.value.next) == Err(NoReferee);
    }
  }
}

=== FILE: fouls.dfy ===
/** Foul adjudication: the Foul record and Referee.CallFoul. */
module Fouls {
  import opened Draws
  import opened Players

  datatype Card = Yellow | Red

  /** One adjudicated incident: who fouled, for which team, and what the referee gave. */
  datatype Foul = Foul(player: Player, teamName: string, hasCard: bool, card: Card,
                       hasPenalty: bool, hasFreeKick: bool)

  /** The adjudicated foul and the position of the next unread draw. */
  datatype Adjudication = Adjudication(foul: Foul, next: nat)

  /** A red card is shown on one outcome of this many. */
  const RedCardOdds: nat := 20

  /**
   * Referee.CallFoul: a card is always shown, red on a 0 from the 20-way draw;
   * a free kick on a 0 from the next 2-way draw; only without a free kick is a
   * third draw read, a 0 giving a penalty.
   */
  function CallFoul(rs: Stream, pos: nat, player: Player, teamName: string): (r: Adjudication)
    ensures r.foul.player == player && r.foul.teamName == teamName
    ensures r.foul.hasCard
    ensures r.foul.card == Red <==> rs(pos) % RedCardOdds == 0
    ensures r.foul.hasFreeKick <==> rs(pos + 1) % 2 == 0
    ensures r.foul.hasPenalty <==> !r.foul.hasFreeKick && rs(pos + 2) % 2 == 0
    ensures !(r.foul.hasFreeKick && r.foul.hasPenalty)
    ensures r.next == if r.foul.hasFreeKick then pos + 2 else pos + 3
  {
    var card := if Next(rs, pos, RedCardOdds) == 0 then Red else Yellow;
    var freeKick := Next(rs, pos + 1, 2) == 0;
    var penalty := !freeKick && Next(rs, pos + 2, 2) == 0;
    Adjudication(Foul(player, teamName, true, card, penalty, freeKick),
                 if freeKick then pos + 2 else pos + 3)
  }

  /** The ruling depends on the draws it consumes and on no later one. */
  lemma CallFoulReadsOnlyItsDraws(rs1: Stream, rs2: Stream, pos: nat, player: Player, teamName: string)
    requires forall i :: pos <= i < CallFoul(rs1, pos, player, teamName).next ==> rs1(i) == rs2(i)
    ensures CallFoul(rs2, pos, player, teamName) == CallFoul(rs1, pos, player, teamName)
  {
    var a := CallFoul(rs1, pos, player, teamName);
    assert rs1(pos) == rs2(pos) && rs1(pos + 1) == rs2(pos + 1);
    if !a.foul.hasFreeKick {
      assert rs1(pos + 2) == rs2(pos + 2);
    }
  }
}

=== FILE: match_facts.dfy ===
/**
 * Facts about whole matches: a technical defeat in either half ends the match
 * at the CheckTechnicalDefeat that follows that half, freezing the score, the
 * clock and the draws, and the result message then names the forfeiting
 * team's opponent. A defeat in the first SimulateOvertime call is different:
 * the call's second period is still played and its goals count, so the
 * message names whoever leads at the check.
 */
module MatchFacts {
  import opened Draws
  import opened Players
  import opened Roster
  import opened MatchEngine

  /** While the score is still the forfeit score, the result message names the forfeiting team's opponent. */
  lemma ForfeitResultNamesOpponent(m: MatchState, loser: Side)
    requires IsForfeit(m, loser)
    ensures Winner(m) == Other(loser)
  {
    if loser == First {
      assert m.firstScore == 0 && m.secondScore == 1;
    }
  }

  /** A technical defeat in the first half ends the match at the check that follows it. */
  lemma FirstHalfDefeatEndsMatch(first: Team, second: Team, tally: Tally, rs: Stream, pos: nat)
    ensures var h1 := Period(Opening(first, second, tally), First, HalfLength, rs, pos);
            var r := SimulateMatch(first, second, tally, rs, pos);
            h1.m.defeated.Some? ==>
              && r.finish == DefeatDetected(FirstHalf)
              && r.pos == h1.pos && r.m.minutes == h1.m.minutes
              && r.m.firstScore == h1.m.firstScore && r.m.secondScore == h1.m.secondScore
              && r.m.log == Delivered(h1.m.log, FinalWhistle(Other(h1.m.defeated.value)))
  {
  }

  /** Likewise for the second half: no overtime follows a technical defeat in it. */
  lemma SecondHalfDefeatEndsMatch(m: MatchState, rs: Stream, pos: nat)
    requires Undecided(m, HalfLength)
    ensures var h2 := Period(Emit(m, HalfTime), Second, HalfLength, rs, pos);
            var r := SecondHalfOn(m, rs, pos);
            h2.m.defeated.Some? ==>
              && r.finish == DefeatDetected(SecondHalf)
              && r.pos == h2.pos && r.m.minutes == h2.m.minutes
              && r.m.firstScore == h2.m.firstScore && r.m.secondScore == h2.m.secondScore
              && r.m.log == Delivered(h2.m.log, FinalWhistle(Other(h2.m.defeated.value)))
  {
  }
}

=== FILE: players.dfy ===
/**
 * Players and their match-accumulated state (Player, Forward, Goalkeeper).
 *
 * A C# Player object is mutable and shared by every match its team plays. Here
 * a player is an immutable identity, and everything that changes about it lives
 * in a `Tally` map that the match engine and the tournament thread through.
 */
module Players {

  /** The two concrete subclasses of Player. */
  datatype Role = Forward | Goalkeeper

  /** A player's identity: an id unique in the tournament and the class it was created as. */
  datatype Player = Player(id: nat, role: Role)

  /** Player.Scores (goals for a forward, saves for a goalkeeper), YellowCards and HasRedCard. */
  datatype Stats = Stats(scores: nat, yellowCards: nat, hasRedCard: bool)

  /** The state the Player constructor sets up. */
  const Fresh: Stats := Stats(0, 0, false)

  /** Player.Score: one more goal or save, nothing else changes. */
  function Score(s: Stats): (r: Stats)
    ensures r.scores == s.scores + 1
    ensures r.yellowCards == s.yellowCards && r.hasRedCard == s.hasRedCard
  {
    s.(scores := s.scores + 1)
  }

  /** Player.ReceiveYellowCard: one more booking; the second one sends the player off. */
  function ReceiveYellowCard(s: Stats): (r: Stats)
    ensures r.yellowCards == s.yellowCards + 1
    ensures r.hasRedCard <==> s.hasRedCard || r.yellowCards == 2
    ensures r.scores == s.scores
  {
    var n := s.yellowCards + 1;
    if n == 2 then s.(yellowCards := n, hasRedCard := true) else s.(yellowCards := n)
  }

  /** Player.ReceiveRedCard: sets the flag and touches nothing else. */
  function ReceiveRedCard(s: Stats): (r: Stats)
    ensures r.hasRedCard
    ensures r.scores == s.scores && r.yellowCards == s.yellowCards
  {
    s.(hasRedCard := true)
  }

  /** `after` is reachable from `before`: no counter went down and the red flag was not cleared. */
  predicate Grows(before: Stats, after: Stats)
  {
    && before.scores <= after.scores
    && before.yellowCards <= after.yellowCards
    && (before.hasRedCard ==> after.hasRedCard)
  }

  /** The three operations a Player offers. */
  datatype Action = Scored | Booked | SentOff

  function Apply(s: Stats, a: Action): (r: Stats)
  {
    match a
    case Scored => Score(s)
    case Booked => ReceiveYellowCard(s)
    case SentOff => ReceiveRedCard(s)
  }

  /** The state after calling the operations `acts` in order. */
  function ApplyAll(s: Stats, acts: seq<Action>): (r: Stats)
    decreases |acts|
  {
    if |acts| == 0 then s else ApplyAll(Apply(s, acts[0]), acts[1..])
  }

  /** No sequence of operations decreases a counter or clears HasRedCard. */
  lemma {:induction false} NothingClearsRedCard(s: Stats, acts: seq<Action>)
    ensures Grows(s, ApplyAll(s, acts))
    decreases |acts|
  {
    if |acts| > 0 {
      NothingClearsRedCard(Apply(s, acts[0]), acts[1..]);
    }
  }

  /** Bookings move one at a time, so a count that reaches 2 passes through 2 and sets the flag. */
  lemma {:induction false} SecondBookingSendsOff(s: Stats, acts: seq<Action>)
    requires s.yellowCards < 2
    ensures ApplyAll(s, acts).yellowCards >= 2 ==> ApplyAll(s, acts).hasRedCard
    decreases |acts|
  {
    if |acts| > 0 {
      var s' := Apply(s, acts[0]);
      if s'.yellowCards < 2 {
        SecondBookingSendsOff(s', acts[1..]);
      } else {
        assert s'.hasRedCard;
        NothingClearsRedCard(s', acts[1..]);
      }
    }
  }

  /** Without a direct red card the flag is set exactly when the player has two or more bookings. */
  lemma {:induction false} RedFlagTracksBookings(s: Stats, acts: seq<Action>)
    requires s.hasRedCard <==> s.yellowCards >= 2
    requires forall i :: 0 <= i < |acts| ==> acts[i] != SentOff
    ensures ApplyAll(s, acts).hasRedCard <==> ApplyAll(s, acts).yellowCards >= 2
    decreases |acts|
  {
    if |acts| > 0 {
      RedFlagTracksBookings(Apply(s, acts[0]), acts[1..]);
    }
  }

  /** Every player's state, keyed by identity; a player never seen has Fresh stats. */
  type Tally = map<Player, Stats>

  function StatsOf(t: Tally, p: Player): (r: Stats)
  {
    if p in t then t[p] else Fresh
  }

  /** Every player's stats only grew from `t1` to `t2`. */
  ghost predicate TallyGrows(t1: Tally, t2: Tally)
  {
    forall p :: Grows(StatsOf(t1, p), StatsOf(t2, p))
  }

  lemma TallyGrowsTransitive(t1: Tally, t2: Tally, t3: Tally)
    ensures TallyGrows(t1, t2) && TallyGrows(t2, t3) ==> TallyGrows(t1, t3)
  {
  }

  /** `p` scores: only `p`'s entry changes. */
  function ScorePlayer(t: Tally, p: Player): (r: Tally)
    ensures StatsOf(r, p) == Score(StatsOf(t, p))
    ensures StatsOf(r, p).scores == StatsOf(t, p).scores + 1
    ensures TallyGrows(t, r)
    ensures forall q :: q != p ==> StatsOf(r, q) == StatsOf(t, q)
  {
    t[p := Score(StatsOf(t, p))]
  }

  /** `p` is booked: only `p`'s entry changes. */
  function BookPlayer(t: Tally, p: Player): (r: Tally)
    ensures StatsOf(r, p) == ReceiveYellowCard(StatsOf(t, p))
    ensures TallyGrows(t, r)
    ensures forall q :: q != p ==> StatsOf(r, q) == StatsOf(t, q)
  {
    t[p := ReceiveYellowCard(StatsOf(t, p))]
  }

}

=== FILE: roster.dfy ===
/**
 * A team's roster (Team<TPlayer>): a starting list capped at eleven with at
 * most one goalkeeper, and a list of substitutes holding everyone else.
 */
module Roster {
  import opened Wrappers
  import opened Players

  /** The size of the starting list. */
  const MaxStarting: nat := 11

  datatype Team = Team(name: string, starting: seq<Player>, substitutes: seq<Player>)

  /** The team's enumeration (GetEnumerator): starting players, then substitutes. */
  function Members(t: Team): (r: seq<Player>)
    ensures |r| == |t.starting| + |t.substitutes|
    ensures r[..|t.starting|] == t.starting && r[|t.starting|..] == t.substitutes
  {
    t.starting + t.substitutes
  }

  predicate HasGoalkeeper(s: seq<Player>)
  {
    exists i :: 0 <= i < |s| && s[i].role == Goalkeeper
  }

  /** No two positions of `s` hold goalkeepers. */
  predicate AtMostOneGoalkeeper(s: seq<Player>)
  {
    forall i, j :: 0 <= i < j < |s| && s[i].role == Goalkeeper ==> s[j].role != Goalkeeper
  }

  /** The roster invariant Add maintains. */
  predicate Valid(t: Team)
  {
    |t.starting| <= MaxStarting && AtMostOneGoalkeeper(t.starting)
  }

  /** The thrown ArgumentNullException. */
  datatype RosterError = NullPlayer

  /** Whether Add puts `p` into the starting list of `t`. */
  predicate JoinsStarting(t: Team, p: Player)
  {
    |t.starting| < MaxStarting && !(p.role == Goalkeeper && HasGoalkeeper(t.starting))
  }

  /**
   * Team.Add: a null player is rejected; otherwise the player is appended to
   * the starting list while it has room and, for a goalkeeper, no goalkeeper,
   * and to the substitutes otherwise.
   */
  function Add(t: Team, p: Option<Player>): (r: Result<Team, RosterError>)
    ensures p.None? <==> r.Err?
    ensures r.Ok? ==> r.value.name == t.name
    ensures r.Ok? ==> multiset(Members(r.value)) == multiset(Members(t)) + multiset{p.value}
    ensures r.Ok? && JoinsStarting(t, p.value) ==>
              r.value.starting == t.starting + [p.value] && r.value.substitutes == t.substitutes
    ensures r.Ok? && !JoinsStarting(t, p.value) ==>
              r.value.starting == t.starting && r.value.substitutes == t.substitutes + [p.value]
    ensures r.Ok? && Valid(t) ==> Valid(r.value)
  {
    match p
    case None => Err(NullPlayer)
    case Some(player) =>
      if |t.starting| >= MaxStarting then
        Ok(t.(substitutes := t.substitutes + [player]))
      else if player.role == Goalkeeper && HasGoalkeeper(t.starting) then
        Ok(t.(substitutes := t.substitutes + [player]))
      else
        Ok(t.(starting := t.starting + [player]))
  }

  /** Adds the players of `ps` one after the other. */
  function AddAll(t: Team, ps: seq<Player>): (r: Team)
    decreases |ps|
  {
    if |ps| == 0 then t else AddAll(Add(t, Some(ps[0])).value, ps[1..])
  }

  /** Any sequence of Add calls keeps the roster invariant and loses nobody. */
  lemma {:induction false} AddKeepsRosterValid(t: Team, ps: seq<Player>)
    requires Valid(t)
    ensures Valid(AddAll(t, ps))
    ensures multiset(Members(AddAll(t, ps))) == multiset(Members(t)) + multiset(ps)
    decreases |ps|
  {
    if |ps| > 0 {
      var t' := Add(t, Some(ps[0])).value;
      assert AddAll(t, ps) == AddAll(t', ps[1..]);
      AddKeepsRosterValid(t', ps[1..]);
      assert ps == [ps[0]] + ps[1..];
      calc {
        multiset(Members(AddAll(t, ps)));
        multiset(Members(t')) + multiset(ps[1..]);
        multiset(Members(t)) + multiset{ps[0]} + multiset(ps[1..]);
        { assert multiset(ps) == multiset{ps[0]} + multiset(ps[1..]); }
        multiset(Members(t)) + multiset(ps);
      }
    }
  }

  /** List<T>.Remove: drops the first occurrence of `p`, if any, and keeps the rest in order. */
  function RemoveFirst(s: seq<Player>, p: Player): (r: seq<Player>)
    ensures p in s ==> |r| == |s| - 1 && multiset(r) == multiset(s) - multiset{p}
    ensures p !in s ==> r == s
  {
    if |s| == 0 then s
    else if s[0] == p then
      assert s == [s[0]] + s[1..];
      s[1..]
    else
      assert s == [s[0]] + s[1..];
      [s[0]] + RemoveFirst(s[1..], p)
  }

  /** Remove takes out exactly the first occurrence, at `i`, and keeps everything else in order. */
  lemma {:induction false} RemoveFirstKeepsOrder(s: seq<Player>, p: Player, i: nat)
    requires i < |s| && s[i] == p && p !in s[..i]
    ensures RemoveFirst(s, p) == s[..i] + s[i + 1..]
  {
    if i == 0 {
      assert s[..0] + s[1..] == s[1..];
    } else {
      var t := s[1..];
      assert s[..i] == [s[0]] + t[..i - 1];
      assert s[0] != p;
      RemoveFirstKeepsOrder(t, p, i - 1);
      assert s[i + 1..] == t[i..];
      assert s[..i] + s[i + 1..] == [s[0]] + (t[..i - 1] + t[i..]);
    }
  }

  datatype Substitution = Substitution(done: bool, team: Team)

  /**
   * Team.SubstitutePlayer: when `p` is in the starting list and a substitute
   * exists, the first substitute takes `p`'s place at the END of the starting
   * list and `p` goes to the end of the substitutes. Otherwise it reports
   * failure and changes nothing. No roster rule is re-checked.
   */
  function Substitute(t: Team, p: Player): (r: Substitution)
    ensures r.done <==> p in t.starting && |t.substitutes| > 0
    ensures !r.done ==> r.team == t
    ensures r.team.name == t.name
  {
    if p in t.starting && |t.substitutes| > 0 then
      var replacement := t.substitutes[0];
      var bench := RemoveFirst(t.substitutes, replacement);
      var field := RemoveFirst(t.starting, p);
      Substitution(true, Team(t.name, field + [replacement], bench + [p]))
    else
      Substitution(false, t)
  }

  /** Where the two players go: `p` leaves the field, the first substitute joins it last. */
  lemma SubstituteRotates(t: Team, p: Player)
    requires p in t.starting && |t.substitutes| > 0
    ensures Substitute(t, p).team.starting == RemoveFirst(t.starting, p) + [t.substitutes[0]]
    ensures Substitute(t, p).team.substitutes == t.substitutes[1..] + [p]
  {
    assert t.substitutes == [t.substitutes[0]] + t.substitutes[1..];
  }

  /** A substitution keeps both list sizes and the squad as a whole. */
  lemma SubstituteKeepsSquad(t: Team, p: Player)
    ensures var r := Substitute(t, p).team;
            |r.starting| == |t.starting| && |r.substitutes| == |t.substitutes|
    ensures multiset(Members(Substitute(t, p).team)) == multiset(Members(t))
  {
    if p in t.starting && |t.substitutes| > 0 {
      SubstituteRotates(t, p);
    }
  }

  /** A substitution can bring a second goalkeeper onto the field. */
  lemma {:induction false} SubstituteSkipsGoalkeeperRule(t: Team, p: Player)
    requires p in t.starting && p.role == Forward
    requires HasGoalkeeper(t.starting)
    requires |t.substitutes| > 0 && t.substitutes[0].role == Goalkeeper
    ensures !AtMostOneGoalkeeper(Substitute(t, p).team.starting)
  {
    var i :| 0 <= i < |t.starting| && t.starting[i].role == Goalkeeper;
    var keeper := t.starting[i];
    var field := RemoveFirst(t.starting, p);
    assert keeper != p;
    assert keeper in multiset(t.starting) - multiset{p};
    assert keeper in field;
    var k :| 0 <= k < |field| && field[k] == keeper;
    SubstituteRotates(t, p);
    var s := Substitute(t, p).team.starting;
    assert s[k] == keeper && s[|field|] == t.substitutes[0];
  }

  /** Elements of `s` of the given role, in order (OfType<...>()). */
  function OfRole(s: seq<Player>, role: Role): (r: seq<Player>)
    ensures |r| <= |s|
    ensures forall p :: p in r <==> p in s && p.role == role
  {
    if |s| == 0 then []
    else (if s[0].role == role then [s[0]] else []) + OfRole(s[1..], role)
  }

  /** OfType keeps every copy of a player of the role and drops every other player. */
  lemma {:induction false} OfRoleCounts(s: seq<Player>, role: Role)
    ensures forall p :: multiset(OfRole(s, role))[p] == if p.role == role then multiset(s)[p] else 0
  {
    if |s| > 0 {
      assert s == [s[0]] + s[1..];
      OfRoleCounts(s[1..], role);
    }
  }

  /** OfType filters each part of a concatenation on its own, so the order of `s` is kept. */
  lemma {:induction false} OfRoleConcat(a: seq<Player>, b: seq<Player>, role: Role)
    ensures OfRole(a + b, role) == OfRole(a, role) + OfRole(b, role)
  {
    if |a| == 0 {
      assert a + b == b;
    } else {
      assert (a + b)[0] == a[0];
      assert (a + b)[1..] == a[1..] + b;
      OfRoleConcat(a[1..], b, role);
      var head := if a[0].role == role then [a[0]] else [];
      assert head + (OfRole(a[1..], role) + OfRole(b, role)) == (head + OfRole(a[1..], role)) + OfRole(b, role);
    }
  }

  /** The first element of `s` of the given role (OfType<...>().FirstOrDefault()). */
  function FirstOfRole(s: seq<Player>, role: Role): (r: Option<Player>)
    ensures r.None? <==> forall i :: 0 <= i < |s| ==> s[i].role != role
    ensures r.Some? ==> exists i :: 0 <= i < |s| && s[i] == r.value && s[i].role == role &&
                          forall j :: 0 <= j < i ==> s[j].role != role
  {
    if |s| == 0 then None
    else if s[0].role == role then Some(s[0])
    else
      var r := FirstOfRole(s[1..], role);
      if r.Some? then
        ghost var i :| 0 <= i < |s[1..]| && s[1..][i] == r.value && s[1..][i].role == role &&
                       forall j :: 0 <= j < i ==> s[1..][j].role != role;
        assert s[i + 1] == r.value;
        r
      else r
  }

  /** Every forward the team enumerates, benched ones included. */
  function Forwards(t: Team): (r: seq<Player>)
  {
    OfRole(Members(t), Forward)
  }

  /** The forwards come in enumeration order: the starting ones, then the benched ones. */
  lemma ForwardsInOrder(t: Team)
    ensures Forwards(t) == OfRole(t.starting, Forward) + OfRole(t.substitutes, Forward)
  {
    assert Members(t) == t.starting + t.substitutes;
    OfRoleConcat(t.starting, t.substitutes, Forward);
  }

  /** The first goalkeeper the team enumerates, benched ones included. */
  function FirstGoalkeeper(t: Team): (r: Option<Player>)
  {
    FirstOfRole(Members(t), Goalkeeper)
  }
}

=== FILE: standings.dfy ===
/**
 * The points table of a tournament (TeamPoints, indexed like Teams), the set
 * of teams whose total is shared, the replay pairs drawn from it, and the
 * final order by descending points.
 */
module Standings {

  /** InitializeTeamPoints: every team starts on 0. */
  function Zeros(n: nat): (r: seq<nat>)
    ensures |r| == n && Sum(r) == 0
    ensures forall t :: 0 <= t < n ==> r[t] == 0
  {
    if n == 0 then [] else [0] + Zeros(n - 1)
  }

  /** All points awarded so far. */
  function Sum(s: seq<nat>): (r: nat)
  {
    if |s| == 0 then 0 else s[0] + Sum(s[1..])
  }

  lemma {:induction false} SumUpdate(s: seq<nat>, t: nat, v: nat)
    requires t < |s|
    ensures Sum(s[t := v]) + s[t] == Sum(s) + v
  {
    if t > 0 {
      assert s[t := v][1..] == s[1..][t - 1 := v];
      SumUpdate(s[1..], t - 1, v);
    }
  }

  /** The points a team earns from a match: 3 for a win, 1 for a draw, 0 for a defeat. */
  function Earned(own: nat, opponent: nat): (r: nat)
    ensures r == 3 <==> own > opponent
    ensures r == 1 <==> own == opponent
    ensures r == 0 <==> own < opponent
  {
    if own > opponent then 3 else if own == opponent then 1 else 0
  }

  /**
   * UpdateTeamPoints for the match teams[a] (first) against teams[b] (second)
   * that ended firstScore : secondScore.
   */
  function UpdatePoints(points: seq<nat>, a: nat, b: nat, firstScore: nat, secondScore: nat): (r: seq<nat>)
    requires a < |points| && b < |points|
    ensures |r| == |points|
  {
    if firstScore > secondScore then points[a := points[a] + 3]
    else if firstScore < secondScore then points[b := points[b] + 3]
    else
      var drawn := points[a := points[a] + 1];
      drawn[b := drawn[b] + 1]
  }

  /** Only the two teams of the match gain points, each what its own result earns. */
  lemma UpdatePointsAwards(points: seq<nat>, a: nat, b: nat, firstScore: nat, secondScore: nat)
    requires a < |points| && b < |points|
    ensures var r := UpdatePoints(points, a, b, firstScore, secondScore);
            forall t :: 0 <= t < |points| && t != a && t != b ==> r[t] == points[t]
    ensures var r := UpdatePoints(points, a, b, firstScore, secondScore);
            a != b ==> r[a] == points[a] + Earned(firstScore, secondScore) &&
                       r[b] == points[b] + Earned(secondScore, firstScore)
  {
  }

  /** A match awards 3 points in all when it has a winner and 2 when it is drawn. */
  lemma UpdateAddsTwoOrThree(points: seq<nat>, a: nat, b: nat, firstScore: nat, secondScore: nat)
    requires a < |points| && b < |points|
    ensures Sum(UpdatePoints(points, a, b, firstScore, secondScore)) ==
            Sum(points) + if firstScore == secondScore then 2 else 3
  {
    if firstScore > secondScore {
      WinAddsThree(points, a);
    } else if firstScore < secondScore {
      WinAddsThree(points, b);
    } else {
      DrawAddsTwo(points, a, b);
    }
  }

  lemma WinAddsThree(points: seq<nat>, w: nat)
    requires w < |points|
    ensures Sum(points[w := points[w] + 3]) == Sum(points) + 3
  {
    SumUpdate(points, w, points[w] + 3);
  }

  lemma DrawAddsTwo(points: seq<nat>, a: nat, b: nat)
    requires a < |points| && b < |points|
    ensures var drawn := points[a := points[a] + 1];
            Sum(drawn[b := drawn[b] + 1]) == Sum(points) + 2
  {
    var drawn := points[a := points[a] + 1];
    SumUpdate(points, a, points[a] + 1);
    SumUpdate(drawn, b, drawn[b] + 1);
  }

  /** Some other team has the same total as team t. */
  predicate Shared(points: seq<nat>, t: nat)
    requires t < |points|
  {
    exists u :: 0 <= u < |points| && u != t && points[u] == points[t]
  }

  /** No repetitions. */
  predicate Distinct(s: seq<nat>)
  {
    forall k, l :: 0 <= k < l < |s| ==> s[k] != s[l]
  }

  /** The teams from index `from` on whose total is v, in list order: one GroupBy group. */
  function Holders(points: seq<nat>, v: nat, from: nat): (r: seq<nat>)
    decreases |points| - from
  {
    if from >= |points| then []
    else (if points[from] == v then [from] else []) + Holders(points, v, from + 1)
  }

  lemma {:induction false} HoldersMembers(points: seq<nat>, v: nat, from: nat)
    ensures forall t :: t in Holders(points, v, from) <==> from <= t < |points| && points[t] == v
    decreases |points| - from
  {
    if from < |points| {
      HoldersMembers(points, v, from + 1);
      assert Holders(points, v, from) ==
             (if points[from] == v then [from] else []) + Holders(points, v, from + 1);
    }
  }

  lemma {:induction false} HoldersDistinct(points: seq<nat>, v: nat, from: nat)
    ensures Distinct(Holders(points, v, from))
    decreases |points| - from
  {
    if from < |points| {
      HoldersDistinct(points, v, from + 1);
      HoldersMembers(points, v, from + 1);
      var rest := Holders(points, v, from + 1);
      var head := if points[from] == v then [from] else [];
      assert Holders(points, v, from) == head + rest;
      DistinctConcat(head, rest);
    }
  }

  /** A group has more than one member exactly when its first member's total is shared. */
  lemma GroupIsShared(points: seq<nat>, t: nat)
    requires t < |points|
    ensures |Holders(points, points[t], 0)| > 1 <==> Shared(points, t)
  {
    var h := Holders(points, points[t], 0);
    HoldersMembers(points, points[t], 0);
    HoldersDistinct(points, points[t], 0);
    if |h| > 1 {
      var u := if h[0] != t then h[0] else h[1];
      assert u in h;
    }
    if Shared(points, t) {
      var u :| 0 <= u < |points| && u != t && points[u] == points[t];
      assert u in h && t in h;
    }
  }

  /** No team before `t` has t's total: t heads its GroupBy group. */
  predicate Heads(points: seq<nat>, t: nat)
    requires t < |points|
  {
    forall j :: 0 <= j < t ==> points[j] != points[t]
  }

  /**
   * GroupBy(points).Where(count > 1).SelectMany, over the groups headed at
   * index `from` or later: groups in order of their first member, members in
   * list order.
   */
  function TiedFrom(points: seq<nat>, from: nat): (r: seq<nat>)
    decreases |points| - from
  {
    if from >= |points| then [] else Group(points, from) + TiedFrom(points, from + 1)
  }

  /** The group contributed at index `from`: its GroupBy group if team `from` heads it and it has company. */
  function Group(points: seq<nat>, from: nat): (r: seq<nat>)
    requires from < |points|
  {
    var holders := Holders(points, points[from], 0);
    if Heads(points, from) && |holders| > 1 then holders else []
  }

  /**
   * teamsWithEqualPoints: a team is in it exactly when another team has its
   * total, and only once.
   */
  function Tied(points: seq<nat>): (r: seq<nat>)
    ensures forall t: nat :: t in r <==> t < |points| && Shared(points, t)
    ensures Distinct(r)
  {
    TiedFromMembers(points, 0);
    TiedFromDistinct(points, 0);
    TiedFrom(points, 0)
  }

  /** Team t's total is shared and no team before index `from` has it. */
  predicate SharedFrom(points: seq<nat>, from: nat, t: nat)
  {
    && t < |points|
    && Shared(points, t)
    && forall j :: 0 <= j < from && j < |points| ==> points[j] != points[t]
  }

  /** The group at `from` holds the teams level with `from` whose total no earlier team has, when it is shared. */
  lemma GroupMembers(points: seq<nat>, from: nat, t: nat)
    requires from < |points|
    ensures t in Group(points, from) <==> SharedFrom(points, from, t) && points[t] == points[from]
  {
    HoldersMembers(points, points[from], 0);
    GroupIsShared(points, from);
    if t in Group(points, from) {
      assert Shared(points, t) by {
        if t == from {
          var u :| 0 <= u < |points| && u != from && points[u] == points[from];
        }
      }
    }
    if SharedFrom(points, from, t) && points[t] == points[from] {
      GroupIsShared(points, t);
    }
  }

  /** A team whose total no team before `from` has either shares team `from`'s total or none before `from + 1` has it. */
  lemma SharedFromStep(points: seq<nat>, from: nat, t: nat)
    requires from < |points|
    ensures SharedFrom(points, from, t) <==>
            SharedFrom(points, from + 1, t) || (SharedFrom(points, from, t) && points[t] == points[from])
  {
  }

  /** The groups headed at `from` or later hold exactly the teams whose shared total no earlier team has. */
  lemma {:induction false} TiedFromMembers(points: seq<nat>, from: nat)
    ensures forall t: nat :: t in TiedFrom(points, from) <==> SharedFrom(points, from, t)
    decreases |points| - from
  {
    if from < |points| {
      TiedFromMembers(points, from + 1);
      forall t: nat
        ensures t in TiedFrom(points, from) <==> SharedFrom(points, from, t)
      {
        GroupMembers(points, from, t);
        SharedFromStep(points, from, t);
      }
    }
  }

  /** Groups are disjoint and each lists its members once. */
  lemma {:induction false} TiedFromDistinct(points: seq<nat>, from: nat)
    ensures Distinct(TiedFrom(points, from))
    decreases |points| - from
  {
    if from < |points| {
      TiedFromDistinct(points, from + 1);
      TiedFromMembers(points, from + 1);
      var v := points[from];
      var group := Holders(points, v, 0);
      var rest := TiedFrom(points, from + 1);
      HoldersMembers(points, v, 0);
      HoldersDistinct(points, v, 0);
      var head := Group(points, from);
      forall x | x in head
        ensures x !in rest
      {
        assert points[x] == points[from];
      }
      DistinctConcat(head, rest);
    }
  }

  lemma {:induction false} DistinctConcat(a: seq<nat>, b: seq<nat>)
    requires Distinct(a) && Distinct(b)
    requires forall x :: x in a ==> x !in b
    ensures Distinct(a + b)
  {
    var s := a + b;
    forall k, l | 0 <= k < l < |s|
      ensures s[k] != s[l]
    {
      if l < |a| {
        assert s[k] == a[k] && s[l] == a[l];
      } else if k >= |a| {
        assert s[k] == b[k - |a|] && s[l] == b[l - |a|];
      } else {
        assert s[k] in a && s[l] in b;
      }
    }
  }

  /** SimulateReplay's inner loop for team t1: t1 against every other listed team, in list order. */
  function Opponents(t1: nat, s: seq<nat>): (r: seq<(nat, nat)>)
  {
    if |s| == 0 then [] else (if s[0] != t1 then [(t1, s[0])] else []) + Opponents(t1, s[1..])
  }

  /** Both replay loops, the outer one over `outer`. */
  function ReplaysOf(outer: seq<nat>, all: seq<nat>): (r: seq<(nat, nat)>)
  {
    if |outer| == 0 then [] else Opponents(outer[0], all) + ReplaysOf(outer[1..], all)
  }

  /**
   * The replays of SimulateTournament. For a list without repeats (as
   * teamsWithEqualPoints is), every ordered pair of distinct listed teams,
   * each once: k(k-1) replays for k teams.
   */
  function ReplayPairs(tied: seq<nat>): (r: seq<(nat, nat)>)
    ensures Distinct(tied) ==> forall x :: x in r <==> x.0 in tied && x.1 in tied && x.0 != x.1
    ensures Distinct(tied) ==> |r| == |tied| * (|tied| - 1)
  {
    if Distinct(tied) && |tied| > 0 then
      ReplaysOfMembers(tied, tied);
      ReplaysOfCount(tied, tied);
      TimesIsProduct(|tied|, |tied| - 1);
      ReplaysOf(tied, tied)
    else
      ReplaysOf(tied, tied)
  }

  lemma {:induction false} DistinctTail(s: seq<nat>)
    requires |s| > 0 && Distinct(s)
    ensures Distinct(s[1..]) && s[0] !in s[1..]
  {
    forall k, l | 0 <= k < l < |s[1..]|
      ensures s[1..][k] != s[1..][l]
    {
      assert s[1..][k] == s[k + 1] && s[1..][l] == s[l + 1];
    }
    forall k | 0 <= k < |s[1..]|
      ensures s[1..][k] != s[0]
    {
      assert s[1..][k] == s[k + 1];
    }
  }

  lemma {:induction false} OpponentsMembers(t1: nat, s: seq<nat>)
    ensures forall x :: x in Opponents(t1, s) <==> x.0 == t1 && x.1 in s && x.1 != t1
  {
    if |s| > 0 {
      OpponentsMembers(t1, s[1..]);
      assert s == [s[0]] + s[1..];
    }
  }

  lemma {:induction false} OpponentsCount(t1: nat, s: seq<nat>)
    requires Distinct(s)
    ensures |Opponents(t1, s)| == if t1 in s then |s| - 1 else |s|
  {
    if |s| > 0 {
      DistinctTail(s);
      OpponentsCount(t1, s[1..]);
      assert s == [s[0]] + s[1..];
    }
  }

  lemma {:induction false} ReplaysOfMembers(outer: seq<nat>, all: seq<nat>)
    requires Distinct(all)
    ensures forall x :: x in ReplaysOf(outer, all) <==> x.0 in outer && x.1 in all && x.0 != x.1
  {
    if |outer| > 0 {
      OpponentsMembers(outer[0], all);
      ReplaysOfMembers(outer[1..], all);
      assert outer == [outer[0]] + outer[1..];
    }
  }

  /** k copies of m added up. */
  function Times(k: nat, m: nat): (r: nat)
  {
    if k == 0 then 0 else m + Times(k - 1, m)
  }

  lemma {:induction false} TimesIsProduct(k: nat, m: nat)
    ensures Times(k, m) == k * m
  {
    if k > 0 {
      TimesIsProduct(k - 1, m);
      assert k * m == m + (k - 1) * m;
    }
  }

  lemma {:induction false} ReplaysOfCount(outer: seq<nat>, all: seq<nat>)
    requires |all| > 0 && Distinct(all) && forall t :: t in outer ==> t in all
    ensures |ReplaysOf(outer, all)| == Times(|outer|, |all| - 1)
  {
    if |outer| > 0 {
      assert outer[0] in outer;
      OpponentsCount(outer[0], all);
      assert forall t :: t in outer[1..] ==> t in outer;
      ReplaysOfCount(outer[1..], all);
    }
  }

  /**
   * Team a is listed before team b by OrderByDescending(t => TeamPoints[t]):
   * more points, or as many and earlier in Teams (the sort is stable).
   */
  predicate Precedes(points: seq<nat>, a: nat, b: nat)
  {
    a < |points| && b < |points| && (points[a] > points[b] || (points[a] == points[b] && a < b))
  }

  /** Strictly in final-table order. */
  predicate RankedBy(points: seq<nat>, r: seq<nat>)
  {
    forall k, l :: 0 <= k < l < |r| ==> Precedes(points, r[k], r[l])
  }

  /** Puts team t into the ranked list after every team that precedes it. */
  function Insert(points: seq<nat>, ranked: seq<nat>, t: nat): (r: seq<nat>)
  {
    if |ranked| == 0 then [t]
    else if Precedes(points, ranked[0], t) then [ranked[0]] + Insert(points, ranked[1..], t)
    else [t] + ranked
  }

  /** The final table of teams 0 .. n-1. */
  function RankFirst(points: seq<nat>, n: nat): (r: seq<nat>)
  {
    if n == 0 then [] else Insert(points, RankFirst(points, n - 1), n - 1)
  }

  /**
   * The order in which the tournament's result lists the teams: every team
   * exactly once, by descending points, and teams level on points in their
   * order in Teams.
   */
  function Ranking(points: seq<nat>): (r: seq<nat>)
    ensures |r| == |points|
    ensures forall t :: t in r <==> 0 <= t < |points|
    ensures RankedBy(points, r)
    ensures Distinct(r)
  {
    var r := RankFirst(points, |points|);
    RankFirstFacts(points, |points|);
    assert forall k, l :: 0 <= k < l < |r| ==> Precedes(points, r[k], r[l]);
    r
  }

  lemma {:induction false} InsertFacts(points: seq<nat>, ranked: seq<nat>, t: nat)
    requires RankedBy(points, ranked) && t < |points| && t !in ranked
    requires forall x :: x in ranked ==> x < |points|
    ensures RankedBy(points, Insert(points, ranked, t))
    ensures |Insert(points, ranked, t)| == |ranked| + 1
    ensures forall x :: x in Insert(points, ranked, t) <==> x in ranked || x == t
  {
    var r := Insert(points, ranked, t);
    if |ranked| > 0 {
      var rest := ranked[1..];
      assert ranked == [ranked[0]] + rest;
      if Precedes(points, ranked[0], t) {
        assert RankedBy(points, rest) by {
          forall k, l | 0 <= k < l < |rest|
            ensures Precedes(points, rest[k], rest[l])
          {
            assert rest[k] == ranked[k + 1] && rest[l] == ranked[l + 1];
          }
        }
        InsertFacts(points, rest, t);
        var tail := Insert(points, rest, t);
        assert r == [ranked[0]] + tail;
        forall l | 1 <= l < |r|
          ensures Precedes(points, r[0], r[l])
        {
          assert r[l] in tail;
          if r[l] != t {
            var m :| 0 <= m < |rest| && rest[m] == r[l];
            assert ranked[m + 1] == r[l];
          }
        }
        forall k, l | 0 <= k < l < |r|
          ensures Precedes(points, r[k], r[l])
        {
          if k > 0 {
            assert r[k] == tail[k - 1] && r[l] == tail[l - 1];
          }
        }
      } else {
        assert ranked[0] in ranked;
        assert Precedes(points, t, ranked[0]);
        forall k, l | 0 <= k < l < |r|
          ensures Precedes(points, r[k], r[l])
        {
          if k > 0 {
            assert r[k] == ranked[k - 1] && r[l] == ranked[l - 1];
          } else if l > 1 {
            assert Precedes(points, ranked[0], ranked[l - 1]);
          }
        }
      }
    }
  }

  lemma {:induction false} RankFirstFacts(points: seq<nat>, n: nat)
    requires n <= |points|
    ensures RankedBy(points, RankFirst(points, n))
    ensures |RankFirst(points, n)| == n
    ensures forall x :: x in RankFirst(points, n) <==> 0 <= x < n
  {
    if n > 0 {
      RankFirstFacts(points, n - 1);
      InsertFacts(points, RankFirst(points, n - 1), n - 1);
    }
  }
}

=== FILE: tournament.dfy ===
/**
 * The Tournament class: the constructor's schedule, SimulateTournament's
 * round robin, the replays among teams level on points, and the final table.
 * Teams are identified by their index in Teams; rosters and player stats
 * carry over from one match to the next.
 */
module Tournament {
  import opened Wrappers
  import opened Draws
  import opened Players
  import opened Roster
  import opened MatchEngine
  import opened Fixtures
  import opened Standings

  /**
   * A tournament in progress: the teams (rosters change as players are
   * substituted), TeamPoints, every player's stats, the officials' indices,
   * the next draw, and the pairs played so far, in order.
   */
  datatype League = League(
    teams: seq<Team>,
    points: seq<nat>,
    tally: Tally,
    cursor: Cursor,
    pos: nat,
    played: seq<(nat, nat)>)

  /** TeamPoints has an entry for every team. */
  predicate WellFormed(l: League)
  {
    |l.points| == |l.teams|
  }

  /** A match between two different teams of the tournament. */
  predicate Playable(l: League, x: (nat, nat))
  {
    x.0 < |l.teams| && x.1 < |l.teams| && x.0 != x.1
  }

  /**
   * How a match is played: its two teams, the stats so far and the position
   * of the next draw, to its result. The tournament uses SimulateMatch.
   */
  type Simulator = (Team, Team, Tally, nat) -> MatchResult

  function Engine(rs: Stream): (r: Simulator)
  {
    (first: Team, second: Team, tally: Tally, pos: nat) => SimulateMatch(first, second, tally, rs, pos)
  }

  /** Played with an engine that never takes back a goal or a card. */
  ghost predicate KeepsStats(sim: Simulator)
  {
    forall first, second, tally, pos :: TallyGrows(tally, sim(first, second, tally, pos).m.tally)
  }

  lemma EngineKeepsStats(rs: Stream)
    ensures KeepsStats(Engine(rs))
  {
    forall first, second, tally, pos
      ensures TallyGrows(tally, Engine(rs)(first, second, tally, pos).m.tally)
    {
      MatchStatsOnlyGrow(first, second, tally, rs, pos);
    }
  }

  /** SimulateMatch of teams[a] (first) against teams[b], then UpdateTeamPoints. */
  function PlayMatch(l: League, a: nat, b: nat, sim: Simulator): (r: League)
    requires WellFormed(l) && Playable(l, (a, b))
    ensures WellFormed(r) && |r.teams| == |l.teams|
    ensures r.played == l.played + [(a, b)] && r.cursor == l.cursor
    ensures 2 + Sum(l.points) <= Sum(r.points) <= 3 + Sum(l.points)
    ensures KeepsStats(sim) ==> TallyGrows(l.tally, r.tally)
  {
    var result := sim(l.teams[a], l.teams[b], l.tally, l.pos);
    UpdateAddsTwoOrThree(l.points, a, b, result.m.firstScore, result.m.secondScore);
    League(
      l.teams[a := result.m.first][b := result.m.second],
      UpdatePoints(l.points, a, b, result.m.firstScore, result.m.secondScore),
      result.m.tally,
      l.cursor,
      result.pos,
      l.played + [(a, b)])
  }

  /** The pairs from index 1 on are still playable once the first match is played. */
  lemma TailPlayable(l: League, next: League, pairs: seq<(nat, nat)>)
    requires |pairs| > 0 && |next.teams| == |l.teams|
    requires forall k :: 0 <= k < |pairs| ==> Playable(l, pairs[k])
    ensures forall k :: 0 <= k < |pairs[1..]| ==> Playable(next, pairs[1..][k])
  {
    forall k | 0 <= k < |pairs[1..]|
      ensures Playable(next, pairs[1..][k])
    {
      assert pairs[1..][k] == pairs[k + 1];
    }
  }

  /** The foreach over Matches: every scheduled pair in turn. */
  function PlayAll(l: League, pairs: seq<(nat, nat)>, sim: Simulator): (r: League)
    requires WellFormed(l) && forall k :: 0 <= k < |pairs| ==> Playable(l, pairs[k])
    ensures WellFormed(r) && |r.teams| == |l.teams|
    ensures r.played == l.played + pairs && r.cursor == l.cursor
    ensures 2 * |pairs| + Sum(l.points) <= Sum(r.points) <= 3 * |pairs| + Sum(l.points)
    ensures KeepsStats(sim) ==> TallyGrows(l.tally, r.tally)
    decreases |pairs|
  {
    if |pairs| == 0 then l
    else
      var next := PlayMatch(l, pairs[0].0, pairs[0].1, sim);
      TailPlayable(l, next, pairs);
      var r := PlayAll(next, pairs[1..], sim);
      assert l.played + pairs == next.played + pairs[1..];
      assert |pairs| == |pairs[1..]| + 1;
      TallyGrowsTransitive(l.tally, next.tally, r.tally);
      r
  }

  /**
   * The replay loops: each SimulateReplay asks for the next officials, which
   * can throw, and then plays and scores the match like a fixture.
   */
  function Replays(l: League, pairs: seq<(nat, nat)>, p: Pools, sim: Simulator): (r: Result<League, PoolError>)
    requires WellFormed(l) && forall k :: 0 <= k < |pairs| ==> Playable(l, pairs[k])
    ensures r.Ok? ==> WellFormed(r.value) && |r.value.teams| == |l.teams|
    ensures r.Ok? ==> r.value.played == l.played + pairs
    ensures r.Ok? ==> 2 * |pairs| + Sum(l.points) <= Sum(r.value.points) <= 3 * |pairs| + Sum(l.points)
    ensures r.Ok? && KeepsStats(sim) ==> TallyGrows(l.tally, r.value.tally)
    ensures Healthy(p, l.cursor) ==> r.Ok? && Healthy(p, r.value.cursor)
    decreases |pairs|
  {
    if |pairs| == 0 then Ok(l)
    else
      var first := pairs[0];
      assert Playable(l, first);
      match NextOfficials(p, l.cursor)
      case Err(e) => Err(e)
      case Ok(a) =>
        var l1 := l.(cursor := a.next);
        var next := PlayMatch(l1, pairs[0].0, pairs[0].1, sim);
        TailPlayable(l, next, pairs);
        var r := Replays(next, pairs[1..], p, sim);
        assert r.Ok? ==> l.played + pairs == next.played + pairs[1..];
        if r.Ok? then TallyGrowsTransitive(l.tally, next.tally, r.value.tally); r else r
  }

  /** Why SimulateTournament threw: FootballException, or a list indexer out of range. */
  datatype TournamentError = TooFewTeams | MissingOfficial(pool: PoolError)

  /** The result of a tournament: its final state and the teams in final-table order. */
  datatype Outcome = Outcome(league: League, table: seq<nat>)

  /** Every pair of the round robin is a match between two different teams. */
  lemma PairsArePlayable(l: League)
    ensures forall k :: 0 <= k < |Pairs(|l.teams|)| ==> Playable(l, Pairs(|l.teams|)[k])
  {
    forall k | 0 <= k < |Pairs(|l.teams|)|
      ensures Playable(l, Pairs(|l.teams|)[k])
    {
      assert Pairs(|l.teams|)[k] in Pairs(|l.teams|);
    }
  }

  /** Every replay pair is a match between two different teams. */
  lemma ReplaysArePlayable(l: League)
    requires WellFormed(l)
    ensures forall k :: 0 <= k < |ReplayPairs(Tied(l.points))| ==> Playable(l, ReplayPairs(Tied(l.points))[k])
  {
    var tied := Tied(l.points);
    forall k | 0 <= k < |ReplayPairs(tied)|
      ensures Playable(l, ReplayPairs(tied)[k])
    {
      assert ReplayPairs(tied)[k] in ReplayPairs(tied);
    }
  }

  /** The tournament's state when SimulateTournament starts: no points, no match played. */
  function NewLeague(teams: seq<Team>, tally: Tally, cursor: Cursor, pos: nat): (l: League)
    ensures WellFormed(l) && l.teams == teams && Sum(l.points) == 0 && l.played == []
  {
    League(teams, Zeros(|teams|), tally, cursor, pos, [])
  }

  /** The first foreach of SimulateTournament: every fixture of the schedule. */
  function RegularRound(teams: seq<Team>, tally: Tally, cursor: Cursor, sim: Simulator, pos: nat): (r: League)
    ensures WellFormed(r) && |r.teams| == |teams| && r.cursor == cursor
    ensures r.played == Pairs(|teams|)
    ensures KeepsStats(sim) ==> TallyGrows(tally, r.tally)
  {
    var l := NewLeague(teams, tally, cursor, pos);
    PairsArePlayable(l);
    PlayAll(l, Pairs(|teams|), sim)
  }

  /**
   * `new Tournament(...)` followed by SimulateTournament: the constructor
   * schedules the round robin (and throws if an official list runs out), the
   * tournament needs two teams, plays every fixture, then a replay for every
   * ordered pair of teams whose total is shared, and ranks the teams.
   */
  function RunTournament(teams: seq<Team>, p: Pools, tally: Tally, sim: Simulator, pos: nat): (r: Result<Outcome, TournamentError>)
    ensures r == Err(TooFewTeams) <==> |teams| < 2
  {
    assert |teams| < 2 ==> Pairs(|teams|) == [];
    match Assign(Pairs(|teams|), p, Start)
    case Err(e) => Err(MissingOfficial(e))
    case Ok(schedule) =>
      if |teams| < 2 then Err(TooFewTeams)
      else
        var round := RegularRound(teams, tally, schedule.next, sim, pos);
        ReplaysArePlayable(round);
        match Replays(round, ReplayPairs(Tied(round.points)), p, sim)
        case Err(e) => Err(MissingOfficial(e))
        case Ok(final) => Ok(Outcome(final, Ranking(final.points)))
  }

  /** With a commentator and 0 < journalists <= referees, no official lookup ever throws. */
  lemma HealthyPoolsNeverThrow(teams: seq<Team>, p: Pools, tally: Tally, sim: Simulator, pos: nat)
    requires |teams| >= 2
    requires p.commentators > 0 && 0 < p.journalists <= p.referees
    ensures RunTournament(teams, p, tally, sim, pos).Ok?
  {
    AssignSucceeds(Pairs(|teams|), p, Start);
  }

  /** With at most two referees and more journalists, three teams are already too many. */
  lemma FewRefereesSinkTournament(teams: seq<Team>, p: Pools, tally: Tally, sim: Simulator, pos: nat)
    requires |teams| >= 3
    requires p.commentators > 0 && p.referees <= 2 && p.referees < p.journalists
    ensures RunTournament(teams, p, tally, sim, pos) == Err(MissingOfficial(NoReferee))
  {
    assert |teams| * (|teams| - 1) >= 3 * 2;
    FewRefereesThrow(Pairs(|teams|), p);
  }

  /**
   * The matches of a tournament: the fixtures i < j in lexicographic order,
   * then one replay for each ordered pair of teams whose total after the
   * fixtures is shared.
   */
  lemma MatchesPlayed(teams: seq<Team>, p: Pools, tally: Tally, sim: Simulator, pos: nat)
    requires RunTournament(teams, p, tally, sim, pos).Ok?
    ensures var o := RunTournament(teams, p, tally, sim, pos).value;
            var cursor := Assign(Pairs(|teams|), p, Start).value.next;
            o.league.played == Pairs(|teams|) + ReplayPairs(Tied(RegularRound(teams, tally, cursor, sim, pos).points))
  {
    var cursor := Assign(Pairs(|teams|), p, Start).value.next;
    var round := RegularRound(teams, tally, cursor, sim, pos);
    ReplaysArePlayable(round);
  }

  /** n teams play n(n-1)/2 fixtures, and the k teams level on points k(k-1) replays. */
  lemma MatchCount(teams: seq<Team>, p: Pools, tally: Tally, sim: Simulator, pos: nat)
    requires RunTournament(teams, p, tally, sim, pos).Ok?
    ensures var o := RunTournament(teams, p, tally, sim, pos).value;
            var cursor := Assign(Pairs(|teams|), p, Start).value.next;
            var k := |Tied(RegularRound(teams, tally, cursor, sim, pos).points)|;
            |o.league.played| == |teams| * (|teams| - 1) / 2 + k * (k - 1)
  {
    var cursor := Assign(Pairs(|teams|), p, Start).value.next;
    var round := RegularRound(teams, tally, cursor, sim, pos);
    var tied := Tied(round.points);
    var played := RunTournament(teams, p, tally, sim, pos).value.league.played;
    MatchesPlayed(teams, p, tally, sim, pos);
    assert |played| == |Pairs(|teams|)| + |ReplayPairs(tied)|;
  }

  /** Every match hands out 2 or 3 points, so the final totals add up accordingly. */
  lemma PointsAddUp(teams: seq<Team>, p: Pools, tally: Tally, sim: Simulator, pos: nat)
    requires RunTournament(teams, p, tally, sim, pos).Ok?
    ensures var l := RunTournament(teams, p, tally, sim, pos).value.league;
            2 * |l.played| <= Sum(l.points) <= 3 * |l.played|
  {
  }

  /** The final table lists every team once, by descending points, ties in Teams order. */
  lemma TableIsRanked(teams: seq<Team>, p: Pools, tally: Tally, sim: Simulator, pos: nat)
    requires RunTournament(teams, p, tally, sim, pos).Ok?
    ensures var o := RunTournament(teams, p, tally, sim, pos).value;
            |o.table| == |teams| &&
            (forall t :: t in o.table <==> 0 <= t < |teams|) &&
            RankedBy(o.league.points, o.table)
  {
    var o := RunTournament(teams, p, tally, sim, pos).value;
  }

  /** Goals and cards carry over from match to match: no player's stats are ever reset. */
  lemma StatsCarryOver(teams: seq<Team>, p: Pools, tally: Tally, sim: Simulator, pos: nat)
    requires KeepsStats(sim)
    requires RunTournament(teams, p, tally, sim, pos).Ok?
    ensures TallyGrows(tally, RunTournament(teams, p, tally, sim, pos).value.league.tally)
  {
    var cursor := Assign(Pairs(|teams|), p, Start).value.next;
    var round := RegularRound(teams, tally, cursor, sim, pos);
    ReplaysArePlayable(round);
    var final := Replays(round, ReplayPairs(Tied(round.points)), p, sim).value;
    TallyGrowsTransitive(tally, round.tally, final.tally);
  }

  /** The tournament as the program runs it: every match is a SimulateMatch drawing from `rs`. */
  function SimulateTournament(teams: seq<Team>, p: Pools, tally: Tally, rs: Stream, pos: nat): (r: Result<Outcome, TournamentError>)
    ensures r.Ok? ==> TallyGrows(tally, r.value.league.tally)
  {
    var r := RunTournament(teams, p, tally, Engine(rs), pos);
    if r.Ok? then
      EngineKeepsStats(rs);
      StatsCarryOver(teams, p, tally, Engine(rs), pos);
      r
    else r
  }
}

=== FILE: wrappers.dfy ===
/** Failure-compatible wrappers used for the simulator's null references and exceptions. */
module Wrappers {

  /** A value that may be absent: a C# reference that may be null. */
  datatype Option<+T> = None | Some(value: T)

  /** The value of an operation that may throw instead of returning. */
  datatype Result<+T, +E> = Ok(value: T) | Err(error: E)
}
